=== FILE: README.md ===
# Spreadsheet cell formula engine

A model of the formula engine behind one cell of the Qt spreadsheet example. The model covers three parts of `src/spreadsheet/cell.cc`:

- **Classification.** `Cell::value` decides what the text a user typed into a cell means:
  - a leading `'` makes the rest literal text;
  - a leading `=` makes the rest a formula;
  - anything else is a number if `QString::toDouble` accepts it, and the text itself otherwise.
- **Evaluation.** The evaluator is a recursive-descent parser that computes values while it parses. It has three levels:
  - expression: terms joined by `+`/`-`;
  - term: factors joined by `*`/`/`;
  - factor: an optional unary minus, then either a parenthesised expression or an operand token.

  It works over a cursor into the formula text. That text has had its spaces removed and carries a NUL sentinel at the end.
- **The cache.** A cell keeps the value it computed last time together with a dirty flag. Writing the edit role sets the flag, and reading the value recomputes only while the flag is set.

Values are three-way: `Number`, `Text` or `Invalid`. Any failure yields `Invalid`:
- arithmetic on a non-number;
- division by zero;
- an unreadable token;
- a missing `)`;
- input the top-level expression did not consume.

`Invalid` absorbs every later operation and is shown as `####`.

## Modules

- `options.dfy` (`Options`): the optional result standing for `toDouble(&ok)` and for a null grid item.
- `chars.dfy` (`Chars`): character classes (ASCII), the NUL sentinel, upper-casing.
- `values.dfy` (`Values`): `Value`, the binary operations, `Apply`, `Negate`.
- `numerals.dfy` (`Numerals`): decimal literals: the part of `toDouble` the engine relies on, with round trips.
- `lexer.dfy` (`Lexer`): space stripping, the cursor read `Peek`, operand tokens.
- `references.dfy` (`References`): the `[A-Za-z][1-9][0-9]{0,2}` reference tokens and the coordinates they name.
- `operands.dfy` (`Operands`): the grid `Lookup`, the meaning of one operand token (`Atom`), the token loop.
- `parser.dfy` (`Parser`): the evaluator exactly as written, including the cursor moving past the sentinel.
- `bounded_parser.dfy` (`BoundedParser`): the evaluator with the cursor kept in bounds, proved equal to `Parser` on every formula.
- `parser_facts.dfy` (`ParserFacts`): what each grammar level yields, the effect of a stray character, the full-consumption rule.
- `formula_examples.dfy` (`FormulaExamples`): values of the formula shapes users type, for every choice of operands and grid.
- `cell.dfy` (`Cells`): the cell: classification, the dirty-flag cache and display.
- `cell_formulas.dfy` (`CellFormulas`): formulas typed into a cell, for every grid.

### Operands and the grid

The grammar is parameterised by `atom: string -> Value`, which gives the meaning of an operand token. In a grid the meaning is `Operands.TokenValue(lookup)`, which reads a token as follows:
- A reference token resolves through `lookup`. `lookup` returns the already evaluated value of the cell at (row, column), or `None` where the table holds no item, and an absent cell reads as 0.
- Any other token is read as a number.
- A token that is neither is `Invalid`.

Every grammar lemma therefore holds for every grid. The lemmas that need the grid's reading of numerals state that as a precondition (`FormulaExamples.ReadsNumerals`), and `FormulaExamples.GridTokens` discharges it for every `lookup`.

### Reading past the end

`Lexer.Peek(s, pos)` is `s[pos]` inside the string and the NUL sentinel at and beyond its end. This choice matters because `evalFactor` advances the cursor after a parenthesised expression even when the `)` is missing (`cell.cc:152-154`):
- For `=(1` the cursor ends on index `size()`, one past the appended NUL.
- For `=((1` it ends on `size() + 1`.

Module `Parser` models the source as written and reads those positions as NUL. Module `BoundedParser` never moves the cursor off the sentinel, so all its reads are in bounds. `BoundedParser.FormulaAgrees` proves that the two give the same value for every formula. `Cells.Evaluate` uses the bounded one.

### Details of the code

- **Space stripping.** `expr.replace(" ", "")` (`cell.cc:66`) removes only U+0020. A tab in a formula is therefore a stray character, which makes the formula Invalid. Around a plain number, by contrast, `toDouble` ignores all ASCII whitespace (`Numerals.ParseNumberPadded`).
- **Who can change the formula.** `Cell::setData` (`cell.cc:29-34`) passes every role to the table item, which stores the edit and display roles as one value. Writing the display role therefore replaces the formula without setting the dirty flag. `Cells.SetData` models this, and `Cells.DisplayWriteLeavesStaleValue` shows the result.

## Model

| member | source | states |
|---|---|---|
| Values.Apply | src/spreadsheet/cell.cc:95-103 | one step of an operator loop is a number exactly when both sides are numbers and it is not a division by zero; it is never text |
| Values.Negate | src/spreadsheet/cell.cc:185-191 | unary minus gives a number exactly for a number, the additive inverse, and never text |
| Values.InvalidAbsorbs | src/spreadsheet/cell.cc:102-103 | Invalid on either side of any operator gives Invalid |
| Values.ApplyCommutes | src/spreadsheet/cell.cc:95-103 | addition and multiplication give the same result with their sides swapped, for every pair of values |
| Values.ApplyAssociates | src/spreadsheet/cell.cc:95-103 | in the real-number model, addition and multiplication are associative on every triple of values, Invalid included (doubles are not; see "## Left out") |
| Values.ApplyDistributes | src/spreadsheet/cell.cc:95-103 | in the real-number model, multiplication distributes over addition on every triple of values (doubles do not; see "## Left out") |
| Values.ApplyInverses | src/spreadsheet/cell.cc:95-101 | in the real-number model, subtraction undoes addition, and division undoes multiplication by a non-zero number (doubles do not; see "## Left out") |
| Values.NegateInvolution | src/spreadsheet/cell.cc:185-191 | negating twice restores a number; anything else becomes Invalid |
| Numerals.NatToString | src/spreadsheet/cell.cc:168 | the decimal rendering has digits only, no leading zero, and the digit value of the number |
| Numerals.ParseUnsigned | src/spreadsheet/cell.cc:179 | an accepted unsigned literal is non-empty, made of digits and '.', and non-negative; a digit string reads as its value |
| Numerals.ParseDecimal | src/spreadsheet/cell.cc:179 | an accepted signed literal holds no letter and no whitespace |
| Numerals.Trim | src/spreadsheet/cell.cc:77 | the trimmed text neither starts nor ends with whitespace, keeps every non-whitespace character, and is the text itself when that is already trimmed |
| Numerals.TrimSurrounded | src/spreadsheet/cell.cc:77 | a trimmed core surrounded by whitespace trims to exactly that core |
| Numerals.TrimPadded | src/spreadsheet/cell.cc:77 | whitespace added on either side does not change the trimmed text |
| Numerals.ParseNumberPadded | src/spreadsheet/cell.cc:77-78 | whitespace typed around a number does not change whether or how it reads |
| Numerals.ParseNumber | src/spreadsheet/cell.cc:76-78 | an accepted number holds no letter, and the empty string is not a number |
| Numerals.ParseNatToString | src/spreadsheet/cell.cc:77-78 | round trip: reading the rendering of a natural number gives the number |
| Numerals.ParseNegatedNatToString | src/spreadsheet/cell.cc:77-78 | round trip with a leading minus sign |
| Numerals.ParseFraction | src/spreadsheet/cell.cc:77-78 | round trip for digits, '.', digits |
| Numerals.NatToStringOfDigits | src/spreadsheet/cell.cc:168 | a numeral without a leading zero is the rendering of its own value |
| Lexer.StripSpaces | src/spreadsheet/cell.cc:66 | the stripped text has no space, only characters of the original, and equals a text that had none |
| Lexer.StripSpacesAppend | src/spreadsheet/cell.cc:66 | stripping keeps the order of the characters kept: it distributes over concatenation |
| Lexer.StripSpacesIdempotent | src/spreadsheet/cell.cc:66 | stripping twice is stripping once |
| Lexer.Peek | src/spreadsheet/cell.cc:87 | the character under the cursor is the string's character inside it and NUL beyond its end |
| Lexer.Token | src/spreadsheet/cell.cc:160-164 | the operand token at the cursor consists of token characters copied from the text and is followed by a non-token character |
| Lexer.TokenOfRun | src/spreadsheet/cell.cc:160-164 | any run of token characters followed by a non-token character is exactly the token read there |
| References.MatchReference | src/spreadsheet/cell.cc:158-168 | a token names a coordinate exactly when it matches the reference pattern, and that coordinate is in the 999 x 26 range |
| References.ReferenceName | src/spreadsheet/cell.cc:165-168 | the canonical name of an in-range coordinate matches the reference pattern |
| References.MatchReferenceName | src/spreadsheet/cell.cc:165-168 | round trip: a coordinate's name matches back to that coordinate |
| References.ReferenceNameOfMatch | src/spreadsheet/cell.cc:165-168 | round trip: a matching token is its coordinate's name, up to the case of the letter |
| References.MatchIgnoresCase | src/spreadsheet/cell.cc:167 | the column letter is case-insensitive |
| Operands.Resolve | src/spreadsheet/cell.cc:170-174 | a reference reads the referenced cell's value, and 0 when there is no cell |
| Operands.Atom | src/spreadsheet/cell.cc:165-182 | a reference token resolves through the grid; any other token is the number it reads as when it reads as one, and otherwise Invalid, in particular when empty or (in the decimal-only reading of `toDouble`) holding a letter |
| Operands.ReadToken | src/spreadsheet/cell.cc:158-164 | the token loop stops at a character that cannot belong to a token, having advanced only over token characters |
| Operands.ReadTokenIsToken | src/spreadsheet/cell.cc:158-182 | the loop consumes and evaluates exactly the token at the cursor |
| Operands.ReadTokenStopsAt | src/spreadsheet/cell.cc:160 | the loop never reads over a non-token character |
| Parser.Expression | src/spreadsheet/cell.cc:84-106 | the cursor never moves back, and the expression stops at a character that is no operator |
| Parser.ExpressionTail | src/spreadsheet/cell.cc:87-104 | every iteration of the loop advances the cursor; Invalid stays Invalid; it ends at no '+' or '-' |
| Parser.Term | src/spreadsheet/cell.cc:108-135 | the cursor never moves back, and a term stops at no '*' or '/' |
| Parser.TermTail | src/spreadsheet/cell.cc:111-133 | every iteration of the loop advances the cursor; Invalid stays Invalid; it ends at no '*' or '/' |
| Parser.Factor | src/spreadsheet/cell.cc:137-193 | the cursor never moves back; a unary minus is consumed and gives no text; a group consumes at least "(" and one more position |
| BoundedParser.EvalFormula | src/spreadsheet/cell.cc:62-73 | the in-bounds evaluator gives the source's value for every formula |
| Parser.Sentinelled | src/spreadsheet/cell.cc:65-67 | the parsed string is the body's non-space characters followed by a NUL sentinel, which is the only NUL when the body holds none |
| Parser.EvalFormula | src/spreadsheet/cell.cc:64-72 | for every body without a NUL, spaces included, the formula is Invalid when the expression stops before the sentinel and has the expression's value otherwise |
| BoundedParser.Factor | src/spreadsheet/cell.cc:148-155 | with the cursor held on the sentinel after an unclosed '(', every cursor stays inside the string |
| BoundedParser.ExpressionAgrees | src/spreadsheet/cell.cc:84-106 | both evaluators' expressions give the same value, and the same cursor while the value is not Invalid |
| BoundedParser.TermAgrees | src/spreadsheet/cell.cc:108-135 | the same for terms |
| BoundedParser.FactorAgrees | src/spreadsheet/cell.cc:137-193 | the same for factors |
| BoundedParser.FormulaAgrees | src/spreadsheet/cell.cc:62-73 | the same value for every whole formula |
| ParserFacts.ExpressionStopsAtStray | src/spreadsheet/cell.cc:87-91 | an expression moves past a stray character only once its value is Invalid |
| ParserFacts.FactorStopsAtStray | src/spreadsheet/cell.cc:148-164 | a factor moves past a stray character only by skipping it after an unclosed '(', as Invalid |
| ParserFacts.StrayCharacterInvalidates | src/spreadsheet/cell.cc:69-72 | a stray character anywhere before the first NUL makes the whole formula Invalid |
| ParserFacts.TokenFactor | src/spreadsheet/cell.cc:158-182 | a whole operand token is one factor with the token's meaning |
| ParserFacts.NegatedFactor | src/spreadsheet/cell.cc:142-146 | a leading '-' negates the factor after it |
| ParserFacts.DoubleMinusInvalid | src/spreadsheet/cell.cc:142-164 | after "--" the token read is empty, so the factor is Invalid |
| ParserFacts.GroupFactor | src/spreadsheet/cell.cc:148-155 | a group is Invalid without its ')' and moves the cursor one past the inner expression either way |
| ParserFacts.InvalidFirstFactor | src/spreadsheet/cell.cc:86-103 | an Invalid first factor makes the whole expression Invalid |
| ParserFacts.FormulaOfExpression | src/spreadsheet/cell.cc:69-72 | a formula is its expression's value when the expression ends at the sentinel, and Invalid when it stops earlier |
| FormulaExamples.SingleOperand | src/spreadsheet/cell.cc:158-182 | a formula of one operand has that operand's value |
| FormulaExamples.ReferenceFormula | src/spreadsheet/cell.cc:165-175 | a formula that is one reference shows the referenced value, and 0 for an absent cell |
| FormulaExamples.NegatedOperand | src/spreadsheet/cell.cc:185-191 | "-a" negates the operand, and a text operand becomes Invalid |
| FormulaExamples.DoubleMinusFormula | src/spreadsheet/cell.cc:142-164 | a formula starting with "--" is Invalid whatever follows |
| FormulaExamples.BinaryFormula | src/spreadsheet/cell.cc:84-135 | "a op b" applies the operation to the two operands' values, at either precedence level |
| FormulaExamples.NumeralArithmetic | src/spreadsheet/cell.cc:95-129 | two numerals joined by an operator give the arithmetic result, and division by 0 gives Invalid |
| FormulaExamples.TextInArithmetic | src/spreadsheet/cell.cc:102-103 | a text operand on either side of an operator makes the formula Invalid |
| FormulaExamples.TernaryFormula | src/spreadsheet/cell.cc:84-135 | "a o1 b o2 c" evaluates '*' and '/' first and otherwise from left to right |
| FormulaExamples.ProductBindsTighter | src/spreadsheet/cell.cc:84-135 | "2+3*4" is 14 |
| FormulaExamples.SubtractionGroupsLeft | src/spreadsheet/cell.cc:87-104 | "8-4-2" is 2 |
| FormulaExamples.GroupFormula | src/spreadsheet/cell.cc:148-155 | "(a o1 b) o2 c" evaluates the group first, whatever the operators' precedence |
| FormulaExamples.ParenthesesGroup | src/spreadsheet/cell.cc:148-155 | "(2+3)*4" is 20 |
| FormulaExamples.UnmatchedClose | src/spreadsheet/cell.cc:69-72 | a ')' with no '(' stops the parse, so the formula is Invalid |
| FormulaExamples.UnclosedParenthesis | src/spreadsheet/cell.cc:152-154 | "(a" is Invalid, and the source's cursor ends one past the appended NUL |
| FormulaExamples.SpacesIgnored | src/spreadsheet/cell.cc:66 | spaces anywhere in a formula do not change its value |
| FormulaExamples.GridTokens | src/spreadsheet/cell.cc:176-182 | in every grid the empty token is Invalid and numerals read as their value |
| FormulaExamples.ReferenceOperand | src/spreadsheet/cell.cc:165-175 | a coordinate's name is an operand that reads that cell |
| Cells.NewCell | src/spreadsheet/cell.cc:4-7 | a new cell holds no text and is dirty |
| Cells.SetDirty | src/spreadsheet/cell.cc:14-17 | setDirty marks the cell dirty and keeps its formula |
| Cells.SetData | src/spreadsheet/cell.cc:29-34 | the edit and display roles replace the formula, only the edit role dirties the cell, and other roles change nothing modelled |
| Cells.SetFormula | src/spreadsheet/cell.cc:24-27 | setFormula stores the text and dirties the cell |
| Cells.Evaluate | src/spreadsheet/cell.cc:59-79 | a quote gives the rest as text, '=' gives the formula's value, and other text is a number exactly when it reads as one and otherwise the text itself |
| Cells.Read | src/spreadsheet/cell.cc:54-82 | value() leaves the cell clean with the result cached and the formula unchanged; a dirty cell is evaluated and a clean one answers from its cache |
| Cells.Render | src/spreadsheet/cell.cc:38-41 | Invalid is shown as "####", text as itself, and a number as its formatting |
| Cells.DisplayData | src/spreadsheet/cell.cc:36-41 | reading the display role reads the value, refreshing the cache, shows "####" for Invalid, text as itself and a number as its formatting |
| Cells.NewCellCoherent | src/spreadsheet/cell.cc:4-7 | a new cell's cache is coherent, and the new cell reads as empty text |
| Cells.ReadIsEvaluate | src/spreadsheet/cell.cc:54-82 | reading a coherent cell gives its formula's value and leaves it coherent |
| Cells.ReadTwice | src/spreadsheet/cell.cc:56-58 | a second read with no write in between returns the first result and changes nothing, even against a changed grid |
| Cells.EditInvalidates | src/spreadsheet/cell.cc:29-34 | after an edit-role write the next read evaluates the new formula |
| Cells.RecalculateUsesCurrentGrid | src/spreadsheet/cell.cc:14-17 | after setDirty the next read uses the current grid |
| Cells.WritesKeepCoherence | src/spreadsheet/cell.cc:29-34 | every write except a display-role one keeps the cache coherent |
| Cells.DisplayWriteLeavesStaleValue | src/spreadsheet/cell.cc:29-34 | a display-role write changes the formula but the cell keeps reading the old value |
| Cells.DisplayCollisions | src/spreadsheet/cell.cc:40 | Invalid looks like the text "####", and a number looks like the text of its formatting |
| Cells.RenderAmbiguity | src/spreadsheet/cell.cc:40 | two different texts never look alike, and two different values neither of which is a number look alike only as Invalid and "####" |
| Cells.InvalidShowsHashes | src/spreadsheet/cell.cc:38-41 | a cell whose formula is Invalid shows "####" and is clean afterwards |
| Cells.QuotedIsLiteral | src/spreadsheet/cell.cc:60-61 | a leading quote keeps the rest as text exactly as typed |
| Cells.NumericText | src/spreadsheet/cell.cc:74-79 | unquoted non-formula text that reads as a number is that number |
| Cells.NumberEntry | src/spreadsheet/cell.cc:60-79 | typing a natural number gives the number, and quoting it keeps the digits as text |
| Cells.NegativeNumberEntry | src/spreadsheet/cell.cc:74-79 | typing a minus sign before a natural number gives its negation |
| Cells.LetterMakesText | src/spreadsheet/cell.cc:74-79 | in the decimal-only reading of `toDouble`, unquoted non-formula text holding a letter stays the whole text |
| Cells.FormulaEntry | src/spreadsheet/cell.cc:62-73 | a leading '=' hands the rest to the formula evaluator |
| CellFormulas.PrecedenceInCell | src/spreadsheet/cell.cc:62-73 | "=2+3*4" is 14 in every grid |
| CellFormulas.GroupingInCell | src/spreadsheet/cell.cc:62-73 | "=(2+3)*4" is 20 in every grid |
| CellFormulas.ReferenceInCell | src/spreadsheet/cell.cc:165-175 | "=b2" reads row 1, column 1, and 0 when that cell is absent |
| CellFormulas.TrailingGarbage | src/spreadsheet/cell.cc:69-72 | a formula with a stray character is Invalid |
| CellFormulas.UnclosedInCell | src/spreadsheet/cell.cc:148-155 | an operand behind an unclosed parenthesis is Invalid |

## Left out

- **Floating point.** Doubles are modelled as reals: there is no rounding, overflow, infinity or NaN. Division by zero is Invalid in the source as well, so no infinity arises from it.
- Values.ApplyAssociates: a law of the real-number model that double addition and multiplication do not keep: `=(0.1+0.2)+0.3` is 0.6000000000000001 in doubles, `=0.1+(0.2+0.3)` is 0.6.
- Values.ApplyDistributes: a law of the real-number model that doubles do not keep: `=0.1*(0.1+0.3)` is 0.04000000000000001 in doubles, `=0.1*0.1+0.1*0.3` is 0.04.
- Values.ApplyInverses: a law of the real-number model that doubles do not keep: `(0.1+1e17)-1e17` is 0 in doubles, and `(1e200*1e200)/1e200` is infinite. (`Values.ApplyCommutes` holds for doubles as well.)
- **Number parsing.** `QString::toDouble` is restricted to decimal literals:
  - a sign, digits, an optional '.' and more digits;
  - ASCII whitespace around the literal is ignored.

  Exponents, "inf", "nan" and locale forms are not modelled. `toDouble` also trims the non-ASCII whitespace of `QChar::isSpace` (U+00A0, U+0085 and the Unicode separators); the model trims only space and the ASCII controls 9 to 13 (`Chars.IsSpace`).
- Cells.LetterMakesText: holds only in the decimal-only reading of `toDouble`. The program reads "1e3" typed into a cell as the number 1000, and "inf" and "nan" as numbers too, while the model keeps them as text.
- Operands.Atom: a non-reference token holding a letter is Invalid only in the decimal-only reading of `toDouble`. The program reads the operand in `=1e3` as 1000 and `=inf` as infinity, while the model gives Invalid.
- **Letters.** `QChar::isLetterOrNumber` and `toUpper` are restricted to ASCII, so Unicode letters and digits are not token characters here.
- **Number display.** How `QVariant::toString` formats a double in `data(DisplayRole)` is not modelled: `Cells.Render` takes the formatting as a parameter `numText`.
- **Text alignment.** `data(TextAlignmentRole)` (`cell.cc:42-47`) is a display detail.
- **Other roles.** What the table item stores under roles other than edit and display is library state. `Cells.SetData` leaves the modelled cell unchanged for them.
- **Cell references.** A reference calls `value()` on the referenced cell (`cell.cc:170-172`), which evaluates that cell first if it is dirty and refreshes its cache. The model does not follow that call: `lookup` supplies the referenced cells' values as they would be read. Dropped with it are the cache refreshes of the referenced cells and what a cycle reads. Because `value()` clears the dirty flag (`cell.cc:58`) and stores Invalid (`cell.cc:64`) before it evaluates (`cell.cc:70`), a cell that reaches itself again reads Invalid, so `=A1` in A1 is Invalid and every cycle ends.
- **The table.** `tableWidget()` is replaced by `lookup`, which returns `None` for a missing item.
- **Copying.** `clone` (`cell.cc:9-12`) copies the cell; with immutable cells a copy is the value itself.
- **Shape lemmas.** The lemmas in `FormulaExamples` cover the formula shapes they name (one, two or three operands, one group, a unary minus), not arbitrary formulas. Arbitrary formulas are covered by the grammar-level facts in `ParserFacts` and by the bounds in `Parser`.

## Findings

| source | as written | input that shows it | evidently intended | confidence | as-written member | corrected member |
|---|---|---|---|---|---|---|
| src/spreadsheet/cell.cc:152-154 | after an unclosed '(' the cursor is advanced even when it stands on the appended NUL, so the next read `str[pos]` is outside the string | `=(1`: index `size()` is read first by `evalTerm`'s loop test (`cell.cc:111`) and again by the final check (`cell.cc:71`); `=((1` reads `size() + 1` | the cursor stays on the sentinel, so every read is in bounds and the value is unchanged (Invalid) | not executed | FormulaExamples.UnclosedParenthesis | BoundedParser.EvalFormula |

=== FILE: bounded_parser.dfy ===
/** The evaluator with the cursor kept inside the sentinel-terminated string.
    It differs from `Parser` in one place: after an unclosed '(' the cursor is not
    advanced when it already stands on the NUL sentinel. Every read is then an
    in-bounds `s[pos]`, and `FormulaAgrees` shows that no formula's value changes. */
module BoundedParser {
  import opened Chars
  import opened Values
  import opened Operands
  import Parser

  /** The string ends with the NUL sentinel. */
  predicate Terminated(s: string) {
    |s| >= 1 && s[|s| - 1] == NUL
  }

  function Expression(s: string, pos: nat, atom: string -> Value): (r: Parsed)
    requires Terminated(s) && pos < |s|
    ensures pos <= r.pos < |s|
    decreases |s| - pos, 4
  {
    var t := Term(s, pos, atom);
    ExpressionTail(s, t.value, t.pos, atom)
  }

  function ExpressionTail(s: string, acc: Value, pos: nat, atom: string -> Value): (r: Parsed)
    requires Terminated(s) && pos < |s|
    ensures pos <= r.pos < |s|
    ensures acc == Invalid ==> r.value == Invalid
    decreases |s| - pos, 3
  {
    var op := s[pos];
    if op == NUL then Parsed(acc, pos)
    else if op != '+' && op != '-' then Parsed(acc, pos)
    else
      var t := Term(s, pos + 1, atom);
      ExpressionTail(s, Apply(if op == '+' then Add else Sub, acc, t.value), t.pos, atom)
  }

  function Term(s: string, pos: nat, atom: string -> Value): (r: Parsed)
    requires Terminated(s) && pos < |s|
    ensures pos <= r.pos < |s|
    decreases |s| - pos, 2
  {
    var f := Factor(s, pos, atom);
    TermTail(s, f.value, f.pos, atom)
  }

  function TermTail(s: string, acc: Value, pos: nat, atom: string -> Value): (r: Parsed)
    requires Terminated(s) && pos < |s|
    ensures pos <= r.pos < |s|
    ensures acc == Invalid ==> r.value == Invalid
    decreases |s| - pos, 1
  {
    var op := s[pos];
    if op == NUL then Parsed(acc, pos)
    else if op != '*' && op != '/' then Parsed(acc, pos)
    else
      var f := Factor(s, pos + 1, atom);
      TermTail(s, Apply(if op == '*' then Mul else Div, acc, f.value), f.pos, atom)
  }

  function Factor(s: string, pos: nat, atom: string -> Value): (r: Parsed)
    requires Terminated(s) && pos < |s|
    ensures pos <= r.pos < |s|
    decreases |s| - pos, 0
  {
    var negative := s[pos] == '-';
    var start := if negative then pos + 1 else pos;
    var inner :=
      if s[start] == '(' then
        var e := Expression(s, start + 1, atom);
        var closed := s[e.pos] == ')';
        Parsed(if closed then e.value else Invalid, if s[e.pos] == NUL then e.pos else e.pos + 1)
      else
        ReadToken(s, start, [], atom);
    if negative then Parsed(Negate(inner.value), inner.pos) else inner
  }

  /** The corrected formula evaluation: same classification of the result as the
      source, but the parse never reads outside the sentinel-terminated string. */
  function EvalFormula(body: string, atom: string -> Value): (v: Value)
    ensures v == Parser.EvalFormula(body, atom)
  {
    var s := Parser.Sentinelled(body);
    var r := Expression(s, 0, atom);
    FormulaAgrees(body, atom);
    if s[r.pos] != NUL then Invalid else r.value
  }

  /** Both evaluators give the same value, and while that value is not Invalid they
      also leave the cursor at the same place. Once a subexpression is Invalid the
      two cursors may part (the source may skip one more character), but Invalid is
      absorbing at every level, so the final values still coincide. */
  predicate Agree(a: Parsed, b: Parsed) {
    a.value == b.value && (a.value != Invalid ==> a.pos == b.pos)
  }

  lemma {:induction false} ExpressionAgrees(s: string, pos: nat, atom: string -> Value)
    requires Terminated(s) && pos < |s|
    ensures Agree(Parser.Expression(s, pos, atom), Expression(s, pos, atom))
    decreases |s| - pos, 4
  {
    TermAgrees(s, pos, atom);
    var t := Term(s, pos, atom);
    if t.value != Invalid {
      ExpressionTailAgrees(s, t.value, t.pos, atom);
    }
  }

  lemma {:induction false} ExpressionTailAgrees(s: string, acc: Value, pos: nat, atom: string -> Value)
    requires Terminated(s) && pos < |s|
    ensures Agree(Parser.ExpressionTail(s, acc, pos, atom), ExpressionTail(s, acc, pos, atom))
    decreases |s| - pos, 3
  {
    var op := s[pos];
    if op != NUL && (op == '+' || op == '-') {
      TermAgrees(s, pos + 1, atom);
      var t := Term(s, pos + 1, atom);
      var next := Apply(if op == '+' then Add else Sub, acc, t.value);
      if t.value != Invalid {
        ExpressionTailAgrees(s, next, t.pos, atom);
      }
    }
  }

  lemma {:induction false} TermAgrees(s: string, pos: nat, atom: string -> Value)
    requires Terminated(s) && pos < |s|
    ensures Agree(Parser.Term(s, pos, atom), Term(s, pos, atom))
    decreases |s| - pos, 2
  {
    FactorAgrees(s, pos, atom);
    var f := Factor(s, pos, atom);
    if f.value != Invalid {
      TermTailAgrees(s, f.value, f.pos, atom);
    }
  }

  lemma {:induction false} TermTailAgrees(s: string, acc: Value, pos: nat, atom: string -> Value)
    requires Terminated(s) && pos < |s|
    ensures Agree(Parser.TermTail(s, acc, pos, atom), TermTail(s, acc, pos, atom))
    decreases |s| - pos, 1
  {
    var op := s[pos];
    if op != NUL && (op == '*' || op == '/') {
      FactorAgrees(s, pos + 1, atom);
      var f := Factor(s, pos + 1, atom);
      var next := Apply(if op == '*' then Mul else Div, acc, f.value);
      if f.value != Invalid {
        TermTailAgrees(s, next, f.pos, atom);
      }
    }
  }

  lemma {:induction false} FactorAgrees(s: string, pos: nat, atom: string -> Value)
    requires Terminated(s) && pos < |s|
    ensures Agree(Parser.Factor(s, pos, atom), Factor(s, pos, atom))
    decreases |s| - pos, 0
  {
    var start := if s[pos] == '-' then pos + 1 else pos;
    if s[start] == '(' {
      ExpressionAgrees(s, start + 1, atom);
    }
  }

  /** The corrected evaluator and the source's evaluator agree on every formula. */
  lemma FormulaAgrees(body: string, atom: string -> Value)
    ensures var s := Parser.Sentinelled(body);
            var r := Expression(s, 0, atom);
            (if s[r.pos] != NUL then Invalid else r.value) == Parser.EvalFormula(body, atom)
  {
    ExpressionAgrees(Parser.Sentinelled(body), 0, atom);
  }
}

=== FILE: cell.dfy ===
/** The spreadsheet cell: the text the user typed (its formula), how that text is
    classified and evaluated, and the cached value guarded by a dirty flag.

    The source keeps the cache in mutable members that the `const` method `value()`
    updates. Here a cell is an immutable value, and every operation that may
    update the cache returns the cell as it is afterwards. */
module Cells {
  import opened Chars
  import opened Values
  import opened Numerals
  import opened Operands
  import Parser
  import BoundedParser

  /** The item-data roles the cell distinguishes. The table item keeps a single
      string for both the edit and the display role, so writing either one
      replaces the formula; only the edit role also marks the cache dirty. */
  datatype Role = EditRole | DisplayRole | OtherRole

  /** The formula text, the value computed from it last time, and whether that
      value must be recomputed before it is used. */
  datatype Cell = Cell(formula: string, cached: Value, dirty: bool)

  /** A result together with the cell as it is after producing it. */
  datatype After<T> = After(result: T, cell: Cell)

  /** A freshly created cell holds no text, and it is dirty. */
  function NewCell(): (c: Cell)
    ensures c.dirty && c.formula == []
  {
    Cell([], Invalid, true)
  }

  /** Forces the next read to recompute the value. */
  function SetDirty(c: Cell): (d: Cell)
    ensures d.dirty && d.formula == c.formula
  {
    c.(dirty := true)
  }

  /** Stores `text` under `role`. Writing the edit or the display role replaces
      the formula; only the edit role invalidates the cache. */
  function SetData(c: Cell, role: Role, text: string): (d: Cell)
    ensures role != OtherRole ==> d.formula == text
    ensures role == EditRole ==> d.dirty
    ensures role == DisplayRole ==> d.cached == c.cached && d.dirty == c.dirty
    ensures role == OtherRole ==> d == c
  {
    match role
    case EditRole => SetDirty(c.(formula := text))
    case DisplayRole => c.(formula := text)
    case OtherRole => c
  }

  /** `setFormula` writes the edit role. */
  function SetFormula(c: Cell, text: string): (d: Cell)
    ensures d.formula == text && d.dirty
  {
    SetData(c, EditRole, text)
  }

  /** Classification of the cell's text: a leading quote makes the rest literal
      text; a leading '=' makes the rest a formula; anything else is a number if
      it reads as one and otherwise the text itself. Formulas are evaluated by the
      in-bounds evaluator, which agrees with the source's on every formula. */
  function Evaluate(text: string, lookup: Lookup): (v: Value)
    ensures |text| > 0 && text[0] == '\'' ==> v == Text(text[1..])
    ensures |text| > 0 && text[0] == '=' ==> v == Parser.EvalFormula(text[1..], TokenValue(lookup))
    ensures (|text| == 0 || (text[0] != '\'' && text[0] != '=')) ==>
              (v.Number? <==> ParseNumber(text).Some?) && (!v.Number? ==> v == Text(text))
  {
    if |text| > 0 && text[0] == '\'' then
      Text(text[1..])
    else if |text| > 0 && text[0] == '=' then
      BoundedParser.EvalFormula(text[1..], TokenValue(lookup))
    else
      match ParseNumber(text)
      case Some(d) => Number(d)
      case None => Text(text)
  }

  /** `value()`: a dirty cell is evaluated and the result cached, a clean cell
      answers from its cache. Either way the cell is clean afterwards and its
      formula is untouched. */
  function Read(c: Cell, lookup: Lookup): (r: After<Value>)
    ensures !r.cell.dirty && r.cell.formula == c.formula && r.cell.cached == r.result
    ensures c.dirty ==> r.result == Evaluate(c.formula, lookup)
    ensures !c.dirty ==> r == After(c.cached, c)
  {
    if c.dirty then
      var v := Evaluate(c.formula, lookup);
      After(v, c.(cached := v, dirty := false))
    else
      After(c.cached, c)
  }

  /** What the table shows for a value: Invalid as "####", text as itself, and a
      number as `numText` formats it (`QVariant::toString` on a double). */
  function Render(v: Value, numText: real -> string): (s: string)
    ensures v == Invalid ==> s == "####"
    ensures v.Text? ==> s == v.t
    ensures v.Number? ==> s == numText(v.n)
  {
    match v
    case Number(x) => numText(x)
    case Text(t) => t
    case Invalid => "####"
  }

  /** `data(DisplayRole)`: reading the display role reads the value, so it may
      refresh the cache as a side effect. */
  function DisplayData(c: Cell, lookup: Lookup, numText: real -> string): (r: After<string>)
    ensures r.cell == Read(c, lookup).cell
    ensures Read(c, lookup).result == Invalid ==> r.result == "####"
    ensures Read(c, lookup).result.Text? ==> r.result == Read(c, lookup).result.t
    ensures Read(c, lookup).result.Number? ==> r.result == numText(Read(c, lookup).result.n)
  {
    var read := Read(c, lookup);
    After(Render(read.result, numText), read.cell)
  }

  // ---------------------------------------------------------------------------
  // The cache

  /** The cache is trustworthy for a grid: a clean cell holds what evaluating its
      formula against that grid gives. */
  predicate Coherent(c: Cell, lookup: Lookup) {
    !c.dirty ==> c.cached == Evaluate(c.formula, lookup)
  }

  /** A new cell, and any dirty cell, is coherent for every grid. */
  lemma NewCellCoherent(lookup: Lookup)
    ensures Coherent(NewCell(), lookup)
    ensures Read(NewCell(), lookup).result == Text([])
  {
  }

  /** Reading a coherent cell gives the value of its formula, and the cell stays
      coherent. */
  lemma ReadIsEvaluate(c: Cell, lookup: Lookup)
    requires Coherent(c, lookup)
    ensures Read(c, lookup).result == Evaluate(c.formula, lookup)
    ensures Coherent(Read(c, lookup).cell, lookup)
  {
  }

  /** A second read, with no write in between, answers from the cache: it returns
      the first result and leaves the cell as it was, even against a different
      grid. */
  lemma ReadTwice(c: Cell, lookup1: Lookup, lookup2: Lookup)
    ensures var first := Read(c, lookup1);
      Read(first.cell, lookup2) == first
  {
  }

  /** Writing the edit role invalidates the cache: the next read evaluates the new
      formula, whatever the cell held before. */
  lemma EditInvalidates(c: Cell, text: string, lookup: Lookup)
    ensures Coherent(SetData(c, EditRole, text), lookup)
    ensures Read(SetFormula(c, text), lookup).result == Evaluate(text, lookup)
  {
  }

  /** After `setDirty` the next read uses the grid as it is now. */
  lemma RecalculateUsesCurrentGrid(c: Cell, lookup1: Lookup, lookup2: Lookup)
    ensures var stale := Read(c, lookup1).cell;
      Read(SetDirty(stale), lookup2).result == Evaluate(c.formula, lookup2)
  {
  }

  /** Every write except one to the display role keeps the cache coherent. */
  lemma WritesKeepCoherence(c: Cell, role: Role, text: string, lookup: Lookup)
    requires Coherent(c, lookup) && role != DisplayRole
    ensures Coherent(SetData(c, role, text), lookup)
  {
  }

  /** Writing the display role changes the formula without invalidating the cache:
      a cell read with "'a" and then given "'b" this way still reads as "a". */
  lemma DisplayWriteLeavesStaleValue(lookup: Lookup)
    ensures var c := Read(SetFormula(NewCell(), "'a"), lookup).cell;
      var d := SetData(c, DisplayRole, "'b");
      && d.formula == "'b"
      && Read(d, lookup).result == Text("a")
      && Evaluate(d.formula, lookup) == Text("b")
      && !Coherent(d, lookup)
  {
    var c := Read(SetFormula(NewCell(), "'a"), lookup).cell;
    assert c.cached == Text("a");
    var d := SetData(c, DisplayRole, "'b");
    assert Evaluate(d.formula, lookup) == Text("b");
  }

  // ---------------------------------------------------------------------------
  // Display

  /** What looks alike on screen: Invalid and the text "####", and a number and
      the text of its formatting. */
  lemma DisplayCollisions(x: real, numText: real -> string)
    ensures Render(Invalid, numText) == Render(Text("####"), numText)
    ensures Render(Number(x), numText) == Render(Text(numText(x)), numText)
  {
  }

  /** Two different values that look alike are never two texts; without a number
      involved they are Invalid and the text "####". */
  lemma RenderAmbiguity(v: Value, w: Value, numText: real -> string)
    requires v != w && Render(v, numText) == Render(w, numText)
    ensures !(v.Text? && w.Text?)
    ensures !v.Number? && !w.Number? ==>
              (v == Invalid && w == Text("####")) || (v == Text("####") && w == Invalid)
  {
  }

  /** A cell whose formula is Invalid shows "####", and reading it refreshes the
      cache. */
  lemma InvalidShowsHashes(c: Cell, lookup: Lookup, numText: real -> string)
    requires Coherent(c, lookup) && Evaluate(c.formula, lookup) == Invalid
    ensures DisplayData(c, lookup, numText).result == "####"
    ensures !DisplayData(c, lookup, numText).cell.dirty
  {
  }

  // ---------------------------------------------------------------------------
  // Classification

  /** A leading quote shows the rest of the text exactly as typed, even when it
      looks like a number or a formula. */
  lemma QuotedIsLiteral(t: string, lookup: Lookup, numText: real -> string)
    ensures Evaluate("'" + t, lookup) == Text(t)
    ensures Render(Evaluate("'" + t, lookup), numText) == t
  {
    assert ("'" + t)[1..] == t;
  }

  /** Text that is neither quoted nor a formula and reads as a number is that number. */
  lemma NumericText(t: string, lookup: Lookup)
    requires |t| > 0 && t[0] != '\'' && t[0] != '='
    ensures ParseNumber(t).Some? ==> Evaluate(t, lookup) == Number(ParseNumber(t).value)
  {
  }

  /** Typing a natural number gives that number; quoting it keeps the digits as
      text. */
  lemma NumberEntry(n: nat, lookup: Lookup)
    ensures Evaluate(NatToString(n), lookup) == Number(n as real)
    ensures Evaluate("'" + NatToString(n), lookup) == Text(NatToString(n))
  {
    var d := NatToString(n);
    ParseNatToString(n);
    assert IsDigit(d[0]);
    NumericText(d, lookup);
    assert ("'" + d)[1..] == d;
  }

  /** Typing a minus sign before a natural number gives its negation. */
  lemma NegativeNumberEntry(n: nat, lookup: Lookup)
    ensures Evaluate("-" + NatToString(n), lookup) == Number(-(n as real))
  {
    var t := "-" + NatToString(n);
    ParseNegatedNatToString(n);
    assert t[0] == '-';
    NumericText(t, lookup);
  }

  /** Text that is neither quoted nor a formula and holds a letter is kept as the
      whole text. */
  lemma LetterMakesText(t: string, lookup: Lookup)
    requires |t| > 0 && t[0] != '\'' && t[0] != '='
    requires exists i :: 0 <= i < |t| && IsAsciiLetter(t[i])
    ensures Evaluate(t, lookup) == Text(t)
  {
  }

  /** A leading '=' hands the rest of the text to the formula evaluator. */
  lemma FormulaEntry(body: string, lookup: Lookup)
    ensures Evaluate("=" + body, lookup) == Parser.EvalFormula(body, TokenValue(lookup))
  {
    assert ("=" + body)[1..] == body;
  }
}

=== FILE: cell_formulas.dfy ===
/** Formulas typed into a cell of a grid: the formula shapes of `FormulaExamples`
    read through `Cells.Evaluate`, for every grid. */
module CellFormulas {
  import opened Options
  import opened Chars
  import opened Values
  import opened Numerals
  import opened References
  import opened Operands
  import Cells
  import ParserFacts
  import FormulaExamples

  /** "=2+3*4" is 14 in every grid: multiplication binds tighter. */
  lemma PrecedenceInCell(lookup: Lookup)
    ensures Cells.Evaluate("=2+3*4", lookup) == Number(14.0)
  {
    FormulaExamples.GridTokens(lookup);
    FormulaExamples.ProductBindsTighter(TokenValue(lookup));
    Cells.FormulaEntry("2+3*4", lookup);
  }

  /** "=(2+3)*4" is 20 in every grid: parentheses group first. */
  lemma GroupingInCell(lookup: Lookup)
    ensures Cells.Evaluate("=(2+3)*4", lookup) == Number(20.0)
  {
    FormulaExamples.GridTokens(lookup);
    FormulaExamples.ParenthesesGroup(TokenValue(lookup));
    Cells.FormulaEntry("(2+3)*4", lookup);
  }

  /** "=b2" shows the value of the cell in row 1, column 1 (both zero-based), and
      0 when that cell is absent. */
  lemma ReferenceInCell(lookup: Lookup)
    ensures Cells.Evaluate("=b2", lookup) == Resolve(Ref(1, 1), lookup)
    ensures lookup(1, 1).None? ==> Cells.Evaluate("=b2", lookup) == Number(0.0)
  {
    assert IsReferenceToken("b2");
    assert DigitsValue("2") == 2 by {
      assert "2"[..0] == [];
    }
    assert MatchReference("b2") == Some(Ref(1, 1)) by {
      assert "b2"[1..] == "2";
    }
    FormulaExamples.ReferenceFormula("b2", lookup);
    Cells.FormulaEntry("b2", lookup);
  }

  /** A stray character anywhere in a formula (before any NUL) makes it Invalid:
      the top-level expression stops before the sentinel. */
  lemma TrailingGarbage(before: string, c: char, after: string, lookup: Lookup)
    requires ParserFacts.Stray(c) && NUL !in before
    ensures Cells.Evaluate("=" + before + [c] + after, lookup) == Invalid
  {
    ParserFacts.StrayCharacterInvalidates(before, c, after, TokenValue(lookup));
    assert "=" + before + [c] + after == "=" + (before + [c] + after);
    Cells.FormulaEntry(before + [c] + after, lookup);
  }

  /** An operand behind an unclosed parenthesis is Invalid. */
  lemma UnclosedInCell(a: string, lookup: Lookup)
    requires FormulaExamples.IsOperand(a)
    ensures Cells.Evaluate("=(" + a, lookup) == Invalid
  {
    FormulaExamples.UnclosedParenthesis(a, TokenValue(lookup));
    assert "=(" + a == "=" + ("(" + a);
    Cells.FormulaEntry("(" + a, lookup);
  }
}

=== FILE: chars.dfy ===
/** Character classes used by the formula language. The source asks Qt
    (`QChar::isLetterOrNumber`, `QChar::toUpper`); this model restricts them to ASCII. */
module Chars {

  /** The sentinel appended to a formula before parsing (`QChar::Null`). */
  const NUL: char := '\0'

  predicate IsDigit(c: char) {
    '0' <= c <= '9'
  }

  predicate IsAsciiLetter(c: char) {
    'A' <= c <= 'Z' || 'a' <= c <= 'z'
  }

  /** Whitespace as ignored around a number by `QString::toDouble` (ASCII part only). */
  predicate IsSpace(c: char) {
    c == ' ' || 9 <= c as int <= 13
  }

  /** A character the operand scanner collects into a token: a letter, a digit or '.'. */
  predicate IsTokenChar(c: char) {
    IsAsciiLetter(c) || IsDigit(c) || c == '.'
  }

  /** The operators of `evalExpression`. */
  predicate IsAdditive(c: char) {
    c == '+' || c == '-'
  }

  /** The operators of `evalTerm`. */
  predicate IsMultiplicative(c: char) {
    c == '*' || c == '/'
  }

  /** Upper-casing of one letter; every other character is returned unchanged. */
  function ToUpper(c: char): (u: char)
    ensures IsAsciiLetter(c) ==> 'A' <= u <= 'Z'
    ensures IsAsciiLetter(c) ==> (u as int - c as int == 0 || u as int - c as int == -32)
    ensures !('a' <= c <= 'z') ==> u == c
  {
    if 'a' <= c <= 'z' then (c as int - 32) as char else c
  }
}

=== FILE: formula_examples.dfy ===
/** What the evaluator computes for the shapes of formula a user types: operands
    joined by operators, parentheses, a unary minus, stray or missing parentheses.
    Each lemma holds for every choice of operands and of the grid. An operand is
    any run of token characters: a numeral, a reference such as "b7", or something
    unreadable such as "1.2.3", and it has whatever value the factor rule gives
    that token. */
module FormulaExamples {
  import opened Options
  import opened Chars
  import opened Values
  import opened Numerals
  import opened References
  import opened Lexer
  import opened Operands
  import opened Parser
  import opened ParserFacts

  /** The character a binary operation is written with. */
  function Symbol(op: BinaryOp): (c: char)
    ensures IsAdditive(c) <==> op == Add || op == Sub
    ensures IsMultiplicative(c) <==> op == Mul || op == Div
  {
    match op
    case Add => '+'
    case Sub => '-'
    case Mul => '*'
    case Div => '/'
  }

  /** '*' and '/' bind tighter than '+' and '-'. */
  predicate BindsTighter(op: BinaryOp) {
    op == Mul || op == Div
  }

  /** Reading an operation's symbol back gives that operation, in the form the
      `evalTerm` and `evalExpression` loops choose it. */
  lemma SymbolRead(op: BinaryOp)
    ensures BindsTighter(op) ==> (if Symbol(op) == '*' then Mul else Div) == op
    ensures !BindsTighter(op) ==> (if Symbol(op) == '+' then Add else Sub) == op
  {
  }

  /** A non-empty run of token characters: what the factor rule reads as one operand. */
  predicate IsOperand(t: string) {
    |t| >= 1 && forall i :: 0 <= i < |t| ==> IsTokenChar(t[i])
  }

  /** A numeral is a non-empty run of ASCII digits. */
  predicate IsNumeral(d: string) {
    |d| >= 1 && AllDigits(d)
  }

  /** Text the evaluator parses as written: no spaces to strip and no NUL to
      end the parse early. */
  predicate Plain(t: string) {
    SpaceFree(t) && NUL !in t
  }

  lemma PlainAppend(a: string, b: string)
    ensures Plain(a + b) <==> Plain(a) && Plain(b)
  {
    SpaceFreeAppend(a, b);
  }

  lemma OperandIsPlain(t: string)
    requires IsOperand(t)
    ensures Plain(t)
  {
    assert forall i :: 0 <= i < |t| ==> IsTokenChar(t[i]);
  }

  lemma NumeralIsOperand(d: string)
    requires IsNumeral(d)
    ensures IsOperand(d)
  {
    assert forall i :: 0 <= i < |d| ==> IsDigit(d[i]);
  }

  /** A numeral operand has the value it spells. */
  lemma NumeralOperand(d: string, lookup: Lookup)
    requires IsNumeral(d)
    ensures IsOperand(d)
    ensures TokenValue(lookup)(d) == Number(DigitsValue(d) as real)
  {
    assert !IsReferenceToken(d);
    assert Trim(d) == d;
    assert ParseNumber(d) == Some(DigitsValue(d) as real);
  }

  /** `atom` gives every numeral the number it spells, as the grid's reading of
      tokens does. */
  ghost predicate ReadsNumerals(atom: string -> Value) {
    forall d :: IsNumeral(d) ==> atom(d) == Number(DigitsValue(d) as real)
  }

  /** The grid's reading of tokens makes the empty token Invalid and reads numerals. */
  lemma GridTokens(lookup: Lookup)
    ensures TokenValue(lookup)([]) == Invalid
    ensures ReadsNumerals(TokenValue(lookup))
  {
    forall d | IsNumeral(d)
      ensures TokenValue(lookup)(d) == Number(DigitsValue(d) as real)
    {
      NumeralOperand(d, lookup);
    }
  }

  /** The canonical name of a reference is an operand that reads the cell. */
  lemma ReferenceOperand(ref: Ref, lookup: Lookup)
    requires InRange(ref)
    ensures IsOperand(ReferenceName(ref))
    ensures TokenValue(lookup)(ReferenceName(ref)) == Resolve(ref, lookup)
  {
    var name := ReferenceName(ref);
    assert forall i :: 1 <= i < |name| ==> IsDigit(name[i]);
    MatchReferenceName(ref);
  }

  /** `a` occurs in `p + a + q` right after `p`. */
  lemma OccursBetween(p: string, a: string, q: string)
    ensures Occurs(p + a + q, |p|, a)
  {
    var s := p + a + q;
    assert forall i :: 0 <= i < |a| ==> s[|p| + i] == a[i];
  }

  /** A plain formula is evaluated by parsing `body + [NUL]`. */
  lemma PlainFormula(body: string, atom: string -> Value, v: Value)
    requires Plain(body)
    requires ExpressionYields(body + [NUL], 0, atom, Parsed(v, |body|))
    ensures EvalFormula(body, atom) == v
  {
    FormulaOfExpression(body, atom, Parsed(v, |body|));
  }

  // ---------------------------------------------------------------------------
  // Operands as factors and terms

  /** The operand `a` starts at `pos` in `s` and is not followed by another token
      character, so the factor rule reads exactly `a`. */
  predicate OperandAt(s: string, pos: nat, a: string) {
    IsOperand(a) && Occurs(s, pos, a) && !IsTokenChar(Peek(s, pos + |a|))
  }

  lemma OperandFactor(s: string, pos: nat, a: string, atom: string -> Value)
    requires OperandAt(s, pos, a)
    ensures FactorYields(s, pos, atom, Parsed(atom(a), pos + |a|))
  {
    TokenFactor(s, pos, a, atom);
  }

  /** An operand not followed by '*' or '/' is a whole term. */
  lemma OperandTerm(s: string, pos: nat, a: string, atom: string -> Value)
    requires OperandAt(s, pos, a) && !IsMultiplicative(Peek(s, pos + |a|))
    ensures TermYields(s, pos, atom, Parsed(atom(a), pos + |a|))
  {
    OperandFactor(s, pos, a, atom);
    TermOfFactor(s, pos, atom, Parsed(atom(a), pos + |a|));
  }

  /** `op b` with op in '*' '/': one iteration of the `evalTerm` loop. */
  lemma ProductStep(s: string, acc: Value, pos: nat, op: BinaryOp, b: string, atom: string -> Value, r: Parsed)
    requires BindsTighter(op) && Peek(s, pos) == Symbol(op) && OperandAt(s, pos + 1, b)
    requires TermTailYields(s, Apply(op, acc, atom(b)), pos + 1 + |b|, atom, r)
    ensures TermTailYields(s, acc, pos, atom, r)
  {
    OperandFactor(s, pos + 1, b, atom);
    SymbolRead(op);
    TermTailStep(s, acc, pos, atom, atom(b), pos + 1 + |b|, r);
  }

  /** `a op b` with op in '*' '/', not followed by another '*' or '/', is a whole term. */
  lemma ProductTerm(s: string, pos: nat, a: string, op: BinaryOp, b: string, atom: string -> Value)
    requires BindsTighter(op) && OperandAt(s, pos, a) && Peek(s, pos + |a|) == Symbol(op)
    requires OperandAt(s, pos + |a| + 1, b) && !IsMultiplicative(Peek(s, pos + |a| + 1 + |b|))
    ensures TermYields(s, pos, atom,
              Parsed(Apply(op, atom(a), atom(b)), pos + |a| + 1 + |b|))
  {
    var va := atom(a);
    var r := Parsed(Apply(op, va, atom(b)), pos + |a| + 1 + |b|);
    TermTailEnd(s, r.value, r.pos, atom);
    ProductStep(s, va, pos + |a|, op, b, atom, r);
    OperandFactor(s, pos, a, atom);
    TermStart(s, pos, atom, va, pos + |a|, r);
  }

  /** Terms `a o1 b` joined by an operation of either level at `pos`, read as an
      expression: the shape inside a pair of parentheses, or a whole formula. */
  lemma PairExpression(s: string, pos: nat, a: string, op: BinaryOp, b: string, atom: string -> Value)
    requires OperandAt(s, pos, a) && Peek(s, pos + |a|) == Symbol(op) && OperandAt(s, pos + |a| + 1, b)
    requires !IsMultiplicative(Peek(s, pos + |a| + 1 + |b|)) && !IsAdditive(Peek(s, pos + |a| + 1 + |b|))
    ensures ExpressionYields(s, pos, atom,
              Parsed(Apply(op, atom(a), atom(b)), pos + |a| + 1 + |b|))
  {
    var va, vb := atom(a), atom(b);
    if BindsTighter(op) {
      ProductTerm(s, pos, a, op, b, atom);
      ExpressionOfTerm(s, pos, atom, Parsed(Apply(op, va, vb), pos + |a| + 1 + |b|));
    } else {
      OperandTerm(s, pos, a, atom);
      OperandTerm(s, pos + |a| + 1, b, atom);
      SymbolRead(op);
      ExpressionOfSum(s, pos, atom, va, pos + |a|, vb, pos + |a| + 1 + |b|);
    }
  }

  // ---------------------------------------------------------------------------
  // One operand

  /** A formula made of a single operand has that operand's value. */
  lemma SingleOperand(a: string, atom: string -> Value)
    requires IsOperand(a)
    ensures EvalFormula(a, atom) == atom(a)
  {
    var s := a + [NUL];
    assert Occurs(s, 0, a);
    OperandTerm(s, 0, a, atom);
    ExpressionOfTerm(s, 0, atom, Parsed(atom(a), |a|));
    OperandIsPlain(a);
    PlainFormula(a, atom, atom(a));
  }

  /** A formula that is just a reference shows the referenced cell's value, in
      either letter case, and 0 when there is no cell there. */
  lemma ReferenceFormula(a: string, lookup: Lookup)
    requires IsReferenceToken(a)
    ensures var ref := MatchReference(a).value;
      && EvalFormula(a, TokenValue(lookup)) == Resolve(ref, lookup)
      && (lookup(ref.row, ref.col).None? ==> EvalFormula(a, TokenValue(lookup)) == Number(0.0))
  {
    assert IsOperand(a) by {
      assert forall i :: 1 <= i < |a| ==> IsDigit(a[i]);
    }
    SingleOperand(a, TokenValue(lookup));
  }

  /** `-a` followed by the end of the text. */
  lemma NegatedParse(s: string, a: string, atom: string -> Value)
    requires Peek(s, 0) == '-' && OperandAt(s, 1, a) && Peek(s, 1 + |a|) == NUL
    ensures ExpressionYields(s, 0, atom, Parsed(Negate(atom(a)), 1 + |a|))
  {
    var v := Negate(atom(a));
    assert Peek(s, 1) == a[0];
    OperandFactor(s, 1, a, atom);
    NegatedFactor(s, 0, atom, atom(a), 1 + |a|);
    TermOfFactor(s, 0, atom, Parsed(v, 1 + |a|));
    ExpressionOfTerm(s, 0, atom, Parsed(v, 1 + |a|));
  }

  /** A leading '-' negates an operand; a reference to a text cell becomes Invalid. */
  lemma NegatedOperand(a: string, atom: string -> Value)
    requires IsOperand(a)
    ensures EvalFormula("-" + a, atom) == Negate(atom(a))
  {
    var body := "-" + a;
    OccursBetween("-", a, [NUL]);
    NegatedParse(body + [NUL], a, atom);
    OperandIsPlain(a);
    PlainAppend("-", a);
    PlainFormula(body, atom, Negate(atom(a)));
  }

  /** Only one unary minus is accepted: a formula starting with "--" is Invalid,
      whatever follows. */
  lemma DoubleMinusFormula(rest: string, atom: string -> Value)
    requires atom([]) == Invalid
    ensures EvalFormula("--" + rest, atom) == Invalid
  {
    StripSpacesAppend("--", rest);
    assert SpaceFree("--");
    var s := Sentinelled("--" + rest);
    assert s == "--" + (StripSpaces(rest) + [NUL]);
    assert Peek(s, 0) == '-' && Peek(s, 1) == '-';
    DoubleMinusInvalid(s, 0, atom);
    InvalidFirstFactor(s, 0, atom);
  }

  // ---------------------------------------------------------------------------
  // Two operands

  /** Makes `a op b` plain when both operands are. */
  lemma BinaryPlain(a: string, op: BinaryOp, b: string)
    requires IsOperand(a) && IsOperand(b)
    ensures Plain(a + [Symbol(op)] + b)
  {
    OperandIsPlain(a);
    OperandIsPlain(b);
    PlainAppend(a, [Symbol(op)]);
    PlainAppend(a + [Symbol(op)], b);
  }

  /** `a op b` laid out in `s` from position 0 and followed by the sentinel. */
  predicate BinaryAt(s: string, a: string, op: BinaryOp, b: string) {
    && OperandAt(s, 0, a) && Peek(s, |a|) == Symbol(op)
    && OperandAt(s, |a| + 1, b) && Peek(s, |a| + 1 + |b|) == NUL
  }

  lemma BinaryLayout(a: string, op: BinaryOp, b: string)
    requires IsOperand(a) && IsOperand(b)
    ensures BinaryAt(a + [Symbol(op)] + b + [NUL], a, op, b)
  {
    var s := a + [Symbol(op)] + b + [NUL];
    assert forall i :: 0 <= i < |b| ==> s[|a| + 1 + i] == b[i];
  }

  /** `a op b` parses as the operation applied to the two operands' values. */
  lemma BinaryParse(s: string, a: string, op: BinaryOp, b: string, atom: string -> Value)
    requires BinaryAt(s, a, op, b)
    ensures ExpressionYields(s, 0, atom, Parsed(Apply(op, atom(a), atom(b)), |a| + 1 + |b|))
  {
    PairExpression(s, 0, a, op, b, atom);
  }

  /** `a op b` evaluates to the operation applied to the two operands' values. */
  lemma BinaryFormula(a: string, op: BinaryOp, b: string, atom: string -> Value)
    requires IsOperand(a) && IsOperand(b)
    ensures EvalFormula(a + [Symbol(op)] + b, atom)
         == Apply(op, atom(a), atom(b))
  {
    var body := a + [Symbol(op)] + b;
    BinaryLayout(a, op, b);
    BinaryParse(body + [NUL], a, op, b, atom);
    BinaryPlain(a, op, b);
    PlainFormula(body, atom, Apply(op, atom(a), atom(b)));
  }

  /** Arithmetic on two numerals, with division by zero giving Invalid. */
  lemma NumeralArithmetic(x: string, op: BinaryOp, y: string, atom: string -> Value)
    requires IsNumeral(x) && IsNumeral(y) && ReadsNumerals(atom)
    ensures EvalFormula(x + [Symbol(op)] + y, atom)
         == Arithmetic(op, DigitsValue(x) as real, DigitsValue(y) as real)
  {
    NumeralIsOperand(x);
    NumeralIsOperand(y);
    var vx, vy := DigitsValue(x) as real, DigitsValue(y) as real;
    assert atom(x) == Number(vx) && atom(y) == Number(vy);
    BinaryFormula(x, op, y, atom);
    ApplyNumbers(op, vx, vy);
  }

  /** A reference to a text cell used in arithmetic makes the formula Invalid, on
      either side of any operator. */
  lemma TextInArithmetic(a: string, op: BinaryOp, b: string, atom: string -> Value)
    requires IsOperand(a) && IsOperand(b)
    requires atom(a).Text? || atom(b).Text?
    ensures EvalFormula(a + [Symbol(op)] + b, atom) == Invalid
  {
    BinaryFormula(a, op, b, atom);
  }

  // ---------------------------------------------------------------------------
  // Three operands: precedence and associativity

  /** The value of `a o1 b o2 c` under the usual rules: '*' and '/' bind tighter
      than '+' and '-', and operators of the same level group to the left. */
  function Ternary(va: Value, o1: BinaryOp, vb: Value, o2: BinaryOp, vc: Value): Value {
    if !BindsTighter(o1) && BindsTighter(o2) then Apply(o1, va, Apply(o2, vb, vc))
    else Apply(o2, Apply(o1, va, vb), vc)
  }

  /** `a o1 b o2 c` laid out in `s` from position 0 and followed by the sentinel. */
  predicate TernaryAt(s: string, a: string, o1: BinaryOp, b: string, o2: BinaryOp, c: string) {
    && OperandAt(s, 0, a) && Peek(s, |a|) == Symbol(o1)
    && OperandAt(s, |a| + 1, b) && Peek(s, |a| + 1 + |b|) == Symbol(o2)
    && OperandAt(s, |a| + |b| + 2, c) && Peek(s, |a| + |b| + 2 + |c|) == NUL
  }

  lemma TernaryLayout(a: string, o1: BinaryOp, b: string, o2: BinaryOp, c: string)
    requires IsOperand(a) && IsOperand(b) && IsOperand(c)
    ensures TernaryAt(a + [Symbol(o1)] + b + [Symbol(o2)] + c + [NUL], a, o1, b, o2, c)
  {
    var s := a + [Symbol(o1)] + b + [Symbol(o2)] + c + [NUL];
    assert forall i :: 0 <= i < |b| ==> s[|a| + 1 + i] == b[i];
    assert forall i :: 0 <= i < |c| ==> s[|a| + |b| + 2 + i] == c[i];
  }

  lemma TernaryPlain(a: string, o1: BinaryOp, b: string, o2: BinaryOp, c: string)
    requires IsOperand(a) && IsOperand(b) && IsOperand(c)
    ensures Plain(a + [Symbol(o1)] + b + [Symbol(o2)] + c)
  {
    BinaryPlain(a, o1, b);
    OperandIsPlain(c);
    PlainAppend(a + [Symbol(o1)] + b, [Symbol(o2)]);
    PlainAppend(a + [Symbol(o1)] + b + [Symbol(o2)], c);
  }

  lemma TernaryProducts(s: string, a: string, o1: BinaryOp, b: string, o2: BinaryOp, c: string, atom: string -> Value)
    requires BindsTighter(o1) && BindsTighter(o2) && TernaryAt(s, a, o1, b, o2, c)
    ensures ExpressionYields(s, 0, atom,
              Parsed(Ternary(atom(a), o1, atom(b), o2, atom(c)),
                     |a| + |b| + 2 + |c|))
  {
    var va, vb := atom(a), atom(b);
    var r := Parsed(Apply(o2, Apply(o1, va, vb), atom(c)), |a| + |b| + 2 + |c|);
    TermTailEnd(s, r.value, r.pos, atom);
    ProductStep(s, Apply(o1, va, vb), |a| + 1 + |b|, o2, c, atom, r);
    ProductStep(s, va, |a|, o1, b, atom, r);
    OperandFactor(s, 0, a, atom);
    TermStart(s, 0, atom, va, |a|, r);
    ExpressionOfTerm(s, 0, atom, r);
  }

  lemma TernaryProductThenSum(s: string, a: string, o1: BinaryOp, b: string, o2: BinaryOp, c: string, atom: string -> Value)
    requires BindsTighter(o1) && !BindsTighter(o2) && TernaryAt(s, a, o1, b, o2, c)
    ensures ExpressionYields(s, 0, atom,
              Parsed(Ternary(atom(a), o1, atom(b), o2, atom(c)),
                     |a| + |b| + 2 + |c|))
  {
    ProductTerm(s, 0, a, o1, b, atom);
    OperandTerm(s, |a| + |b| + 2, c, atom);
    SymbolRead(o2);
    ExpressionOfSum(s, 0, atom, Apply(o1, atom(a), atom(b)), |a| + 1 + |b|,
                    atom(c), |a| + |b| + 2 + |c|);
  }

  lemma TernarySumThenProduct(s: string, a: string, o1: BinaryOp, b: string, o2: BinaryOp, c: string, atom: string -> Value)
    requires !BindsTighter(o1) && BindsTighter(o2) && TernaryAt(s, a, o1, b, o2, c)
    ensures ExpressionYields(s, 0, atom,
              Parsed(Ternary(atom(a), o1, atom(b), o2, atom(c)),
                     |a| + |b| + 2 + |c|))
  {
    OperandTerm(s, 0, a, atom);
    ProductTerm(s, |a| + 1, b, o2, c, atom);
    SymbolRead(o1);
    ExpressionOfSum(s, 0, atom, atom(a), |a|,
                    Apply(o2, atom(b), atom(c)), |a| + |b| + 2 + |c|);
  }

  lemma TernarySums(s: string, a: string, o1: BinaryOp, b: string, o2: BinaryOp, c: string, atom: string -> Value)
    requires !BindsTighter(o1) && !BindsTighter(o2) && TernaryAt(s, a, o1, b, o2, c)
    ensures ExpressionYields(s, 0, atom,
              Parsed(Ternary(atom(a), o1, atom(b), o2, atom(c)),
                     |a| + |b| + 2 + |c|))
  {
    var va, vb, vc := atom(a), atom(b), atom(c);
    var r := Parsed(Apply(o2, Apply(o1, va, vb), vc), |a| + |b| + 2 + |c|);
    OperandTerm(s, |a| + |b| + 2, c, atom);
    OperandTerm(s, |a| + 1, b, atom);
    OperandTerm(s, 0, a, atom);
    SymbolRead(o1);
    SymbolRead(o2);
    ExpressionTailEnd(s, r.value, r.pos, atom);
    ExpressionTailStep(s, Apply(o1, va, vb), |a| + 1 + |b|, atom, vc, r.pos, r);
    ExpressionTailStep(s, va, |a|, atom, vb, |a| + 1 + |b|, r);
    ExpressionStart(s, 0, atom, va, |a|, r);
  }

  /** `a o1 b o2 c` parses by precedence and left associativity. */
  lemma TernaryParse(s: string, a: string, o1: BinaryOp, b: string, o2: BinaryOp, c: string, atom: string -> Value)
    requires TernaryAt(s, a, o1, b, o2, c)
    ensures ExpressionYields(s, 0, atom,
              Parsed(Ternary(atom(a), o1, atom(b), o2, atom(c)), |a| + |b| + 2 + |c|))
  {
    if BindsTighter(o1) && BindsTighter(o2) {
      TernaryProducts(s, a, o1, b, o2, c, atom);
    } else if BindsTighter(o1) {
      TernaryProductThenSum(s, a, o1, b, o2, c, atom);
    } else if BindsTighter(o2) {
      TernarySumThenProduct(s, a, o1, b, o2, c, atom);
    } else {
      TernarySums(s, a, o1, b, o2, c, atom);
    }
  }

  /** `a o1 b o2 c` evaluates by precedence and left associativity. */
  lemma TernaryFormula(a: string, o1: BinaryOp, b: string, o2: BinaryOp, c: string, atom: string -> Value)
    requires IsOperand(a) && IsOperand(b) && IsOperand(c)
    ensures EvalFormula(a + [Symbol(o1)] + b + [Symbol(o2)] + c, atom)
         == Ternary(atom(a), o1, atom(b), o2, atom(c))
  {
    var body := a + [Symbol(o1)] + b + [Symbol(o2)] + c;
    TernaryLayout(a, o1, b, o2, c);
    TernaryParse(body + [NUL], a, o1, b, o2, c, atom);
    TernaryPlain(a, o1, b, o2, c);
    PlainFormula(body, atom, Ternary(atom(a), o1, atom(b), o2, atom(c)));
  }


  /** "2+3*4" is 14: multiplication binds tighter than addition. */
  lemma ProductBindsTighter(atom: string -> Value)
    requires ReadsNumerals(atom)
    ensures EvalFormula("2+3*4", atom) == Number(14.0)
  {
    NumeralIsOperand("2");
    NumeralIsOperand("3");
    NumeralIsOperand("4");
    assert atom("2") == Number(2.0) && atom("3") == Number(3.0) && atom("4") == Number(4.0);
    TernaryFormula("2", Add, "3", Mul, "4", atom);
    ApplyNumbers(Mul, 3.0, 4.0);
    ApplyNumbers(Add, 2.0, 12.0);
    assert "2+3*4" == "2" + [Symbol(Add)] + "3" + [Symbol(Mul)] + "4";
  }


  /** "8-4-2" is 2: subtraction groups to the left. */
  lemma SubtractionGroupsLeft(atom: string -> Value)
    requires ReadsNumerals(atom)
    ensures EvalFormula("8-4-2", atom) == Number(2.0)
  {
    NumeralIsOperand("8");
    NumeralIsOperand("4");
    NumeralIsOperand("2");
    assert atom("8") == Number(8.0) && atom("4") == Number(4.0) && atom("2") == Number(2.0);
    TernaryFormula("8", Sub, "4", Sub, "2", atom);
    ApplyNumbers(Sub, 8.0, 4.0);
    ApplyNumbers(Sub, 4.0, 2.0);
    assert "8-4-2" == "8" + [Symbol(Sub)] + "4" + [Symbol(Sub)] + "2";
  }


  // ---------------------------------------------------------------------------
  // Parentheses

  /** `(a o1 b) o2 c` laid out in `s` from position 0 and followed by the sentinel. */
  predicate GroupAt(s: string, a: string, o1: BinaryOp, b: string, o2: BinaryOp, c: string) {
    && Peek(s, 0) == '('
    && OperandAt(s, 1, a) && Peek(s, 1 + |a|) == Symbol(o1)
    && OperandAt(s, |a| + 2, b) && Peek(s, |a| + 2 + |b|) == ')'
    && Peek(s, |a| + |b| + 3) == Symbol(o2)
    && OperandAt(s, |a| + |b| + 4, c) && Peek(s, |a| + |b| + 4 + |c|) == NUL
  }

  /** The text of `(a o1 b) o2 c`. */
  function GroupText(a: string, o1: BinaryOp, b: string, o2: BinaryOp, c: string): string {
    "(" + a + [Symbol(o1)] + b + ")" + [Symbol(o2)] + c
  }

  lemma GroupLayout(a: string, o1: BinaryOp, b: string, o2: BinaryOp, c: string)
    requires IsOperand(a) && IsOperand(b) && IsOperand(c)
    ensures GroupAt(GroupText(a, o1, b, o2, c) + [NUL], a, o1, b, o2, c)
  {
    var s := GroupText(a, o1, b, o2, c) + [NUL];
    assert forall i :: 0 <= i < |a| ==> s[1 + i] == a[i];
    assert forall i :: 0 <= i < |b| ==> s[|a| + 2 + i] == b[i];
    assert forall i :: 0 <= i < |c| ==> s[|a| + |b| + 4 + i] == c[i];
  }

  lemma GroupPlain(a: string, o1: BinaryOp, b: string, o2: BinaryOp, c: string)
    requires IsOperand(a) && IsOperand(b) && IsOperand(c)
    ensures Plain(GroupText(a, o1, b, o2, c))
  {
    BinaryPlain(a, o1, b);
    OperandIsPlain(c);
    PlainAppend("(", a + [Symbol(o1)] + b);
    assert "(" + (a + [Symbol(o1)] + b) == "(" + a + [Symbol(o1)] + b;
    PlainAppend("(" + a + [Symbol(o1)] + b, ")");
    PlainAppend("(" + a + [Symbol(o1)] + b + ")", [Symbol(o2)]);
    PlainAppend("(" + a + [Symbol(o1)] + b + ")" + [Symbol(o2)], c);
  }

  /** A parenthesised expression followed by `o2 c`, with o2 in '*' '/'. */
  lemma GroupTimes(s: string, v: Value, p: nat, o2: BinaryOp, c: string, atom: string -> Value)
    requires BindsTighter(o2)
    requires Peek(s, 0) == '(' && ExpressionYields(s, 1, atom, Parsed(v, p)) && Peek(s, p) == ')'
    requires Peek(s, p + 1) == Symbol(o2) && OperandAt(s, p + 2, c) && Peek(s, p + 2 + |c|) == NUL
    ensures ExpressionYields(s, 0, atom, Parsed(Apply(o2, v, atom(c)), p + 2 + |c|))
  {
    var r := Parsed(Apply(o2, v, atom(c)), p + 2 + |c|);
    TermTailEnd(s, r.value, r.pos, atom);
    ProductStep(s, v, p + 1, o2, c, atom, r);
    GroupFactor(s, 0, atom, v, p);
    TermStart(s, 0, atom, v, p + 1, r);
    ExpressionOfTerm(s, 0, atom, r);
  }

  /** A parenthesised expression followed by `o2 c`, with o2 in '+' '-'. */
  lemma GroupPlus(s: string, v: Value, p: nat, o2: BinaryOp, c: string, atom: string -> Value)
    requires !BindsTighter(o2)
    requires Peek(s, 0) == '(' && ExpressionYields(s, 1, atom, Parsed(v, p)) && Peek(s, p) == ')'
    requires Peek(s, p + 1) == Symbol(o2) && OperandAt(s, p + 2, c) && Peek(s, p + 2 + |c|) == NUL
    ensures ExpressionYields(s, 0, atom, Parsed(Apply(o2, v, atom(c)), p + 2 + |c|))
  {
    GroupFactor(s, 0, atom, v, p);
    TermOfFactor(s, 0, atom, Parsed(v, p + 1));
    OperandTerm(s, p + 2, c, atom);
    SymbolRead(o2);
    ExpressionOfSum(s, 0, atom, v, p + 1, atom(c), p + 2 + |c|);
  }

  /** `(a o1 b) o2 c` parses as the group's value combined with `c`. */
  lemma GroupParse(s: string, a: string, o1: BinaryOp, b: string, o2: BinaryOp, c: string, atom: string -> Value)
    requires GroupAt(s, a, o1, b, o2, c)
    ensures ExpressionYields(s, 0, atom,
              Parsed(Apply(o2, Apply(o1, atom(a), atom(b)), atom(c)), |a| + |b| + 4 + |c|))
  {
    var vab := Apply(o1, atom(a), atom(b));
    PairExpression(s, 1, a, o1, b, atom);
    if BindsTighter(o2) {
      GroupTimes(s, vab, |a| + 2 + |b|, o2, c, atom);
    } else {
      GroupPlus(s, vab, |a| + 2 + |b|, o2, c, atom);
    }
  }

  /** `(a o1 b) o2 c` evaluates the parenthesised operation first, whatever the
      operators' precedence. */
  lemma GroupFormula(a: string, o1: BinaryOp, b: string, o2: BinaryOp, c: string, atom: string -> Value)
    requires IsOperand(a) && IsOperand(b) && IsOperand(c)
    ensures EvalFormula(GroupText(a, o1, b, o2, c), atom)
         == Apply(o2, Apply(o1, atom(a), atom(b)), atom(c))
  {
    var body := GroupText(a, o1, b, o2, c);
    GroupLayout(a, o1, b, o2, c);
    GroupParse(body + [NUL], a, o1, b, o2, c, atom);
    GroupPlain(a, o1, b, o2, c);
    PlainFormula(body, atom, Apply(o2, Apply(o1, atom(a), atom(b)), atom(c)));
  }


  /** "(2+3)*4" is 20. */
  lemma ParenthesesGroup(atom: string -> Value)
    requires ReadsNumerals(atom)
    ensures EvalFormula("(2+3)*4", atom) == Number(20.0)
  {
    NumeralIsOperand("2");
    NumeralIsOperand("3");
    NumeralIsOperand("4");
    assert atom("2") == Number(2.0) && atom("3") == Number(3.0) && atom("4") == Number(4.0);
    GroupFormula("2", Add, "3", Mul, "4", atom);
    ApplyNumbers(Add, 2.0, 3.0);
    ApplyNumbers(Mul, 5.0, 4.0);
    assert "(2+3)*4" == GroupText("2", Add, "3", Mul, "4");
  }


  /** A ')' with no '(' before it stops the parse early, so the formula is Invalid
      whatever follows. */
  lemma UnmatchedClose(a: string, rest: string, atom: string -> Value)
    requires IsOperand(a)
    ensures EvalFormula(a + ")" + rest, atom) == Invalid
  {
    OperandIsPlain(a);
    SpaceFreeAppend(a, ")");
    StripSpacesAppend(a + ")", rest);
    var s := Sentinelled(a + ")" + rest);
    assert s == a + ")" + (StripSpaces(rest) + [NUL]);
    OccursBetween([], a, ")" + (StripSpaces(rest) + [NUL]));
    OperandTerm(s, 0, a, atom);
    ExpressionOfTerm(s, 0, atom, Parsed(atom(a), |a|));
  }

  /** `(a` followed by the end of the text: the group's ')' is missing. */
  lemma UnclosedGroup(s: string, a: string, atom: string -> Value)
    requires Peek(s, 0) == '(' && OperandAt(s, 1, a) && Peek(s, 1 + |a|) == NUL && |s| == |a| + 2
    ensures ExpressionYields(s, 0, atom, Parsed(Invalid, |s|))
  {
    OperandTerm(s, 1, a, atom);
    ExpressionOfTerm(s, 1, atom, Parsed(atom(a), 1 + |a|));
    GroupFactor(s, 0, atom, atom(a), 1 + |a|);
    TermOfFactor(s, 0, atom, Parsed(Invalid, |s|));
    ExpressionOfTerm(s, 0, atom, Parsed(Invalid, |s|));
  }

  /** `(a` with the ')' missing is Invalid; the source's cursor is then moved past
      the appended NUL, one position beyond the end of the string it indexes. */
  lemma UnclosedParenthesis(a: string, atom: string -> Value)
    requires IsOperand(a)
    ensures EvalFormula("(" + a, atom) == Invalid
    ensures var s := Sentinelled("(" + a);
      Expression(s, 0, atom).pos == |s|
  {
    var body := "(" + a;
    OperandIsPlain(a);
    PlainAppend("(", a);
    var s := body + [NUL];
    assert Sentinelled(body) == s;
    OccursBetween("(", a, [NUL]);
    UnclosedGroup(s, a, atom);
  }


  // ---------------------------------------------------------------------------
  // Spaces

  /** Spaces anywhere in a formula are ignored. */
  lemma SpacesIgnored(body: string, atom: string -> Value)
    ensures EvalFormula(body, atom) == EvalFormula(StripSpaces(body), atom)
  {
    assert StripSpaces(StripSpaces(body)) == StripSpaces(body);
  }
}

=== FILE: lexer.dfy ===
/** The cursor-level view of a formula: the space stripping done before parsing,
    reading the character under the cursor, and scanning an operand token. */
module Lexer {
  import opened Chars

  /** `t` holds no space character. */
  predicate SpaceFree(t: string) {
    forall i :: 0 <= i < |t| ==> t[i] != ' '
  }

  /** A concatenation is space-free exactly when both parts are. */
  lemma SpaceFreeAppend(a: string, b: string)
    ensures SpaceFree(a + b) <==> SpaceFree(a) && SpaceFree(b)
  {
    if SpaceFree(a + b) {
      assert forall i :: 0 <= i < |a| ==> a[i] == (a + b)[i];
      assert forall i :: 0 <= i < |b| ==> b[i] == (a + b)[|a| + i];
    }
  }

  /** `expr.replace(" ", "")`: removes every space character, and nothing else. */
  function StripSpaces(t: string): (r: string)
    ensures SpaceFree(r)
    ensures forall c :: c in r ==> c in t
    ensures SpaceFree(t) ==> r == t
    ensures |r| <= |t|
  {
    if |t| == 0 then []
    else
      var rest := StripSpaces(t[1..]);
      assert forall c :: c in t[1..] ==> c in t;
      if t[0] == ' ' then rest else [t[0]] + rest
  }

  /** Stripping distributes over concatenation: the order of the kept characters is preserved. */
  lemma {:induction false} StripSpacesAppend(a: string, b: string)
    ensures StripSpaces(a + b) == StripSpaces(a) + StripSpaces(b)
    decreases |a|
  {
    if |a| > 0 {
      assert (a + b)[1..] == a[1..] + b;
      StripSpacesAppend(a[1..], b);
    } else {
      assert a + b == b;
    }
  }

  /** Stripping twice is stripping once. */
  lemma StripSpacesIdempotent(t: string)
    ensures StripSpaces(StripSpaces(t)) == StripSpaces(t)
  {
  }

  /** The character under the cursor. Inside the string this is `str[pos]`; at and
      beyond its end it is the sentinel, which is how this model reads the cursor
      that an unclosed parenthesis pushes past the appended NUL. */
  function Peek(s: string, pos: nat): (c: char)
    ensures pos < |s| ==> c == s[pos]
    ensures pos >= |s| ==> c == NUL
  {
    if pos < |s| then s[pos] else NUL
  }

  /** The input left to the right of the cursor; the parser's termination measure. */
  function Remaining(s: string, pos: nat): nat {
    if pos <= |s| then |s| - pos else 0
  }

  /** The token scanned at `pos`: the maximal run of token characters there,
      collected one character at a time (empty when the cursor is past the end). */
  function Token(s: string, pos: nat): (tok: string)
    ensures pos + |tok| <= |s| || tok == []
    ensures forall i {:trigger tok[i]} :: 0 <= i < |tok| ==> s[pos + i] == tok[i]
    ensures forall i :: 0 <= i < |tok| ==> IsTokenChar(tok[i])
    ensures !IsTokenChar(Peek(s, pos + |tok|))
    decreases Remaining(s, pos)
  {
    if IsTokenChar(Peek(s, pos)) then
      [s[pos]] + Token(s, pos + 1)
    else
      []
  }

  /** `t` occurs in `s` starting at `pos`. */
  predicate Occurs(s: string, pos: nat, t: string) {
    pos + |t| <= |s| && forall i {:trigger t[i]} :: 0 <= i < |t| ==> s[pos + i] == t[i]
  }

  /** A token is exactly the text between the cursor and the first character that
      cannot belong to a token. */
  lemma {:induction false} TokenOfRun(s: string, pos: nat, tok: string)
    requires Occurs(s, pos, tok)
    requires forall i :: 0 <= i < |tok| ==> IsTokenChar(tok[i])
    requires !IsTokenChar(Peek(s, pos + |tok|))
    ensures Token(s, pos) == tok
    decreases |tok|
  {
    if |tok| > 0 {
      assert s[pos + 0] == tok[0];
      TokenOfRun(s, pos + 1, tok[1..]);
      assert tok == [s[pos]] + tok[1..];
    }
  }
}

=== FILE: numerals.dfy ===
/** Decimal numerals: the part of `QString::toDouble` the formula language relies
    on, and `QString::toInt` on the row digits of a reference. Doubles are modelled
    as reals; exponents, "inf" and "nan" are outside this model. */
module Numerals {
  import opened Options
  import opened Chars

  predicate AllDigits(d: string) {
    forall i :: 0 <= i < |d| ==> IsDigit(d[i])
  }

  function DigitValue(c: char): nat
    requires IsDigit(c)
  {
    c as int - '0' as int
  }

  function DigitChar(k: nat): (c: char)
    requires k < 10
    ensures IsDigit(c) && DigitValue(c) == k
  {
    ('0' as int + k) as char
  }

  /** The value of a string of decimal digits, most significant first. */
  function DigitsValue(d: string): nat
    requires AllDigits(d)
    decreases |d|
  {
    if |d| == 0 then 0 else 10 * DigitsValue(d[..|d| - 1]) + DigitValue(d[|d| - 1])
  }

  function Pow10(k: nat): (p: nat)
    ensures p >= 1
  {
    if k == 0 then 1 else 10 * Pow10(k - 1)
  }

  /** The canonical decimal rendering of a natural number: no sign, no leading zero. */
  function NatToString(n: nat): (d: string)
    ensures |d| >= 1 && AllDigits(d)
    ensures |d| > 1 ==> d[0] != '0'
    ensures DigitsValue(d) == n
  {
    if n < 10 then [DigitChar(n)]
    else
      var prefix := NatToString(n / 10);
      var d := prefix + [DigitChar(n % 10)];
      assert d[..|d| - 1] == prefix;
      d
  }

  /** The end of the run of digits that starts at `i`. */
  function DigitRun(t: string, i: nat): (j: nat)
    requires i <= |t|
    ensures i <= j <= |t|
    ensures forall k :: i <= k < j ==> IsDigit(t[k])
    ensures j < |t| ==> !IsDigit(t[j])
    decreases |t| - i
  {
    if i < |t| && IsDigit(t[i]) then DigitRun(t, i + 1) else i
  }

  /** The value of the literal `whole.frac`. */
  function DecimalValue(whole: string, frac: string): (x: real)
    requires AllDigits(whole) && AllDigits(frac)
    ensures x >= 0.0
  {
    DigitsValue(whole) as real + DigitsValue(frac) as real / Pow10(|frac|) as real
  }

  /** An unsigned decimal literal: digits, optionally followed by '.' and more digits,
      or '.' followed by at least one digit. */
  function ParseUnsigned(t: string): (r: Option<real>)
    ensures r.Some? ==> |t| > 0 && r.value >= 0.0
    ensures r.Some? ==> forall k :: 0 <= k < |t| ==> IsDigit(t[k]) || t[k] == '.'
    ensures |t| > 0 && AllDigits(t) ==> r == Some(DigitsValue(t) as real)
  {
    var i := DigitRun(t, 0);
    if i == |t| then
      if i == 0 then None else Some(DigitsValue(t) as real)
    else if t[i] != '.' then None
    else
      var frac := t[i + 1..];
      if !AllDigits(frac) || (i == 0 && |frac| == 0) then None
      else
        assert AllDigits(t[..i]);
        Some(DecimalValue(t[..i], frac))
  }

  /** A decimal literal with an optional leading sign. */
  function ParseDecimal(t: string): (r: Option<real>)
    ensures r.Some? ==> forall k :: 0 <= k < |t| ==> !IsAsciiLetter(t[k]) && !IsSpace(t[k])
  {
    if |t| > 0 && (t[0] == '+' || t[0] == '-') then
      match ParseUnsigned(t[1..])
      case None => None
      case Some(x) =>
        assert forall k :: 1 <= k < |t| ==> t[k] == t[1..][k - 1];
        Some(if t[0] == '-' then -x else x)
    else
      ParseUnsigned(t)
  }

  /** The first position at or after `i` that does not hold whitespace. */
  function SkipSpaces(t: string, i: nat): (j: nat)
    requires i <= |t|
    ensures i <= j <= |t|
    ensures forall k :: i <= k < j ==> IsSpace(t[k])
    ensures j < |t| ==> !IsSpace(t[j])
    decreases |t| - i
  {
    if i < |t| && IsSpace(t[i]) then SkipSpaces(t, i + 1) else i
  }

  /** The end of `t[..j]` once trailing whitespace is dropped. */
  function TrimmedEnd(t: string, j: nat): (e: nat)
    requires j <= |t|
    ensures e <= j
    ensures forall k :: e <= k < j ==> IsSpace(t[k])
    ensures e > 0 ==> !IsSpace(t[e - 1])
  {
    if j > 0 && IsSpace(t[j - 1]) then TrimmedEnd(t, j - 1) else j
  }

  /** Every character of `w` is whitespace. */
  predicate AllSpace(w: string) {
    forall k :: 0 <= k < |w| ==> IsSpace(w[k])
  }

  /** `t` neither starts nor ends with whitespace. */
  predicate Trimmed(t: string) {
    |t| == 0 || (!IsSpace(t[0]) && !IsSpace(t[|t| - 1]))
  }

  /** `t` without leading and trailing whitespace. Together with `TrimPadded`
      this pins the result down: whatever whitespace surrounds a trimmed core,
      the core is what remains. */
  function Trim(t: string): (r: string)
    ensures Trimmed(r) && |r| <= |t|
    ensures forall k :: 0 <= k < |t| && !IsSpace(t[k]) ==> t[k] in r
    ensures Trimmed(t) ==> r == t
  {
    var a := SkipSpaces(t, 0);
    var b := TrimmedEnd(t, |t|);
    if a <= b then
      assert forall k :: 0 <= k < |t| && !IsSpace(t[k]) ==> a <= k < b && t[k] == t[a..b][k - a];
      assert Trimmed(t) && |t| > 0 ==> a == 0 && b == |t|;
      t[a..b]
    else []
  }

  /** Whitespace around a trimmed core is removed, and nothing else. */
  lemma TrimSurrounded(w1: string, c: string, w2: string)
    requires AllSpace(w1) && AllSpace(w2) && Trimmed(c)
    ensures Trim(w1 + c + w2) == c
  {
    var t := w1 + c + w2;
    var a := SkipSpaces(t, 0);
    var b := TrimmedEnd(t, |t|);
    forall k | 0 <= k < |w1| ensures t[k] == w1[k] { }
    forall k | |w1| + |c| <= k < |t| ensures t[k] == w2[k - |w1| - |c|] { }
    if |c| > 0 {
      assert t[|w1|] == c[0] && t[|w1| + |c| - 1] == c[|c| - 1];
      assert a == |w1|;
      assert b == |w1| + |c|;
      assert t[a..b] == c;
    } else {
      assert AllSpace(t);
      assert a == |t|;
    }
  }

  /** Any text is its trimmed form surrounded by whitespace. */
  lemma TrimSplit(t: string) returns (u1: string, u2: string)
    ensures AllSpace(u1) && AllSpace(u2) && t == u1 + Trim(t) + u2
  {
    var a := SkipSpaces(t, 0);
    var b := TrimmedEnd(t, |t|);
    if a <= b {
      u1, u2 := t[..a], t[b..];
      assert t == u1 + t[a..b] + u2;
    } else {
      u1, u2 := t, [];
      assert AllSpace(t);
    }
  }

  lemma AllSpaceAppend(x: string, y: string)
    requires AllSpace(x) && AllSpace(y)
    ensures AllSpace(x + y)
  {
    forall k | 0 <= k < |x + y| ensures IsSpace((x + y)[k]) {
      if k >= |x| {
        assert (x + y)[k] == y[k - |x|];
      }
    }
  }

  lemma SeqAssoc(a: string, b: string, c: string, d: string, e: string)
    ensures a + (b + c + d) + e == (a + b) + c + (d + e)
  {
  }

  /** Trimming ignores any whitespace added around the text. */
  lemma TrimPadded(w1: string, t: string, w2: string)
    requires AllSpace(w1) && AllSpace(w2)
    ensures Trim(w1 + t + w2) == Trim(t)
  {
    var u1, u2 := TrimSplit(t);
    var c := Trim(t);
    calc {
      w1 + t + w2;
      w1 + (u1 + c + u2) + w2;
      { SeqAssoc(w1, u1, c, u2, w2); }
      (w1 + u1) + c + (u2 + w2);
    }
    AllSpaceAppend(w1, u1);
    AllSpaceAppend(u2, w2);
    TrimSurrounded(w1 + u1, c, u2 + w2);
  }

  /** `QString::toDouble` restricted to decimal literals: surrounding whitespace
      is ignored, and anything holding a letter is rejected. */
  function ParseNumber(t: string): (r: Option<real>)
    ensures r.Some? ==> forall k :: 0 <= k < |t| ==> !IsAsciiLetter(t[k])
    ensures |t| == 0 ==> r == None
  {
    var trimmed := Trim(t);
    var r := ParseDecimal(trimmed);
    assert r.Some? ==> forall k :: 0 <= k < |t| ==> !IsAsciiLetter(t[k]) by {
      if r.Some? {
        forall k | 0 <= k < |t| ensures !IsAsciiLetter(t[k]) {
          if !IsSpace(t[k]) {
            assert t[k] in trimmed;
          }
        }
      }
    }
    r
  }

  /** Whitespace typed around a number does not change how it reads. */
  lemma ParseNumberPadded(w1: string, t: string, w2: string)
    requires AllSpace(w1) && AllSpace(w2)
    ensures ParseNumber(w1 + t + w2) == ParseNumber(t)
  {
    TrimPadded(w1, t, w2);
  }

  /** Round trip: parsing the rendering of a natural number gives that number back. */
  lemma ParseNatToString(n: nat)
    ensures ParseNumber(NatToString(n)) == Some(n as real)
  {
    var d := NatToString(n);
    assert Trim(d) == d;
    assert !(d[0] == '+' || d[0] == '-');
  }

  /** Round trip with a leading minus sign. */
  lemma ParseNegatedNatToString(n: nat)
    ensures ParseNumber("-" + NatToString(n)) == Some(-(n as real))
  {
    var d := NatToString(n);
    var t := "-" + d;
    assert t[1..] == d;
    assert ParseDecimal(t) == Some(-(n as real));
    forall k | 0 <= k < |t| ensures !IsSpace(t[k]) {
      if k > 0 {
        assert t[k] == d[k - 1];
      }
    }
    assert Trim(t) == t;
  }

  /** Round trip for a fractional literal: integer digits, '.', fraction digits. */
  lemma ParseFraction(n: nat, f: string)
    requires AllDigits(f)
    ensures ParseNumber(NatToString(n) + "." + f) == Some(DecimalValue(NatToString(n), f))
  {
    var d := NatToString(n);
    var t := d + "." + f;
    forall k | 0 <= k < |t| ensures !IsSpace(t[k]) && !(k == 0 && (t[k] == '+' || t[k] == '-')) {
      if k < |d| {
        assert t[k] == d[k];
      } else if k > |d| {
        assert t[k] == f[k - |d| - 1];
      }
    }
    assert Trim(t) == t;
    FractionSplit(d, f);
  }

  /** How `ParseUnsigned` splits digits, '.', digits. */
  lemma FractionSplit(d: string, f: string)
    requires |d| >= 1 && AllDigits(d) && AllDigits(f)
    ensures ParseUnsigned(d + "." + f) == Some(DecimalValue(d, f))
  {
    var t := d + "." + f;
    assert t[|d|] == '.';
    assert forall k :: 0 <= k < |d| ==> t[k] == d[k];
    assert DigitRun(t, 0) == |d|;
    assert t[..|d|] == d;
    assert t[|d| + 1..] == f;
  }

  /** The digits of a numeral with no leading zero are its canonical rendering. */
  lemma {:induction false} NatToStringOfDigits(d: string)
    requires |d| >= 1 && AllDigits(d)
    requires |d| > 1 ==> d[0] != '0'
    ensures NatToString(DigitsValue(d)) == d
    decreases |d|
  {
    var n := DigitsValue(d);
    var last := d[|d| - 1];
    if |d| == 1 {
      assert DigitsValue(d[..0]) == 0;
    } else {
      var prefix := d[..|d| - 1];
      assert AllDigits(prefix);
      assert prefix[0] == d[0];
      NatToStringOfDigits(prefix);
      DigitsLowerBound(prefix);
      assert n / 10 == DigitsValue(prefix) && n % 10 == DigitValue(last);
      assert DigitChar(n % 10) == last;
      assert d == prefix + [last];
    }
  }

  /** A numeral of k digits that does not start with '0' is at least 10^(k-1). */
  lemma {:induction false} DigitsLowerBound(d: string)
    requires |d| >= 1 && AllDigits(d) && d[0] != '0'
    ensures DigitsValue(d) >= Pow10(|d| - 1) >= 1
    decreases |d|
  {
    if |d| > 1 {
      assert d[..|d| - 1][0] == d[0];
      DigitsLowerBound(d[..|d| - 1]);
    }
  }
}

=== FILE: operands.dfy ===
/** What both parsers share: the grid capability, the parse result, and the
    meaning of one operand token. */
module Operands {
  import opened Options
  import opened Chars
  import opened Values
  import opened Numerals
  import opened References
  import opened Lexer

  /** The grid: the already evaluated value of the cell at (row, column), or None
      when there is no cell there (`tableWidget()->item(row, column)` is null). */
  type Lookup = (int, int) -> Option<Value>

  /** A value together with the cursor position after the text it was read from. */
  datatype Parsed = Parsed(value: Value, pos: nat)

  /** The value a reference reads: the referenced cell's value, and 0 for an absent cell. */
  function Resolve(ref: Ref, lookup: Lookup): (v: Value)
    ensures lookup(ref.row, ref.col).None? ==> v == Number(0.0)
    ensures lookup(ref.row, ref.col).Some? ==> v == lookup(ref.row, ref.col).value
  {
    match lookup(ref.row, ref.col)
    case Some(v) => v
    case None => Number(0.0)
  }

  /** The value of an operand token: a reference when the whole token matches the
      reference pattern, otherwise a number, otherwise Invalid. */
  function Atom(tok: string, lookup: Lookup): (v: Value)
    ensures IsReferenceToken(tok) ==> v == Resolve(MatchReference(tok).value, lookup)
    ensures !IsReferenceToken(tok) ==> !v.Text?
    ensures !IsReferenceToken(tok) ==> (v.Number? <==> ParseNumber(tok).Some?)
    ensures !IsReferenceToken(tok) && ParseNumber(tok).Some? ==> v == Number(ParseNumber(tok).value)
    ensures |tok| == 0 ==> v == Invalid
    ensures !IsReferenceToken(tok) && (exists i :: 0 <= i < |tok| && IsAsciiLetter(tok[i]))
            ==> v == Invalid
  {
    match MatchReference(tok)
    case Some(ref) => Resolve(ref, lookup)
    case None =>
      match ParseNumber(tok)
      case Some(d) => Number(d)
      case None => Invalid
  }

  /** The meaning of operand tokens in a given grid. */
  function TokenValue(lookup: Lookup): string -> Value {
    tok => Atom(tok, lookup)
  }

  /** The token loop of `evalFactor`: while the character under the cursor can
      belong to a token it is appended to `token`; at the first one that cannot,
      the token read so far is evaluated with `value`. */
  function ReadToken(s: string, pos: nat, token: string, value: string -> Value): (r: Parsed)
    ensures r.pos >= pos && !IsTokenChar(Peek(s, r.pos))
    ensures r.pos > pos ==> r.pos <= |s| && IsTokenChar(s[r.pos - 1])
    decreases Remaining(s, pos)
  {
    if IsTokenChar(Peek(s, pos)) then ReadToken(s, pos + 1, token + [s[pos]], value)
    else Parsed(value(token), pos)
  }

  /** The loop consumes exactly the token `Token` describes. */
  lemma {:induction false} ReadTokenSkips(s: string, pos: nat, token: string, value: string -> Value)
    ensures ReadToken(s, pos, token, value)
         == ReadToken(s, pos + |Token(s, pos)|, token + Token(s, pos), value)
    decreases Remaining(s, pos)
  {
    if IsTokenChar(Peek(s, pos)) {
      ReadTokenSkips(s, pos + 1, token + [s[pos]], value);
      assert token + [s[pos]] + Token(s, pos + 1) == token + Token(s, pos);
    } else {
      assert token + Token(s, pos) == token;
    }
  }

  /** The loop evaluates the whole token `Token` describes. */
  lemma ReadTokenIsToken(s: string, pos: nat, value: string -> Value)
    ensures ReadToken(s, pos, [], value) == Parsed(value(Token(s, pos)), pos + |Token(s, pos)|)
  {
    ReadTokenSkips(s, pos, [], value);
    assert [] + Token(s, pos) == Token(s, pos);
  }

  /** The loop never reads over a character that cannot belong to a token. */
  lemma {:induction false} ReadTokenStopsAt(s: string, pos: nat, token: string, k: nat, value: string -> Value)
    requires pos <= k < |s| && !IsTokenChar(s[k])
    ensures ReadToken(s, pos, token, value).pos <= k
    decreases k - pos
  {
    if pos < k && IsTokenChar(Peek(s, pos)) {
      ReadTokenStopsAt(s, pos + 1, token + [s[pos]], k, value);
    }
  }
}

=== FILE: options.dfy ===
/** The optional result used where the source reports success through a flag
    (`toDouble(&ok)`) or a missing table item (`tableWidget()->item(row, column)` returning null). */
module Options {

  datatype Option<+T> = None | Some(value: T)
}

=== FILE: parser.dfy ===
/** The formula evaluator exactly as the source writes it: three mutually recursive
    levels (expression, term, factor) that evaluate while they parse, over a cursor
    into the space-stripped formula followed by a NUL sentinel.

    The two operator loops are written as the tail-recursive functions
    `ExpressionTail` and `TermTail`, whose `acc` is the loop's running `result`.
    Termination is by the input left to the right of the cursor, then by grammar
    level (ranks 4 down to 0). */
module Parser {
  import opened Chars
  import opened Values
  import opened Lexer
  import opened Operands

  /** expression := term (('+' | '-') term)* */
  function Expression(s: string, pos: nat, atom: string -> Value): (r: Parsed)
    ensures r.pos >= pos
    ensures !IsAdditive(Peek(s, r.pos)) && !IsMultiplicative(Peek(s, r.pos))
    decreases Remaining(s, pos), 4
  {
    var t := Term(s, pos, atom);
    ExpressionTail(s, t.value, t.pos, atom)
  }

  /** The loop of `evalExpression`: it stops at the sentinel or at the first
      character that is not '+' or '-', and otherwise consumes the operator and
      the following term. */
  function ExpressionTail(s: string, acc: Value, pos: nat, atom: string -> Value): (r: Parsed)
    ensures r.pos >= pos
    ensures IsAdditive(Peek(s, pos)) ==> r.pos > pos && !r.value.Text?
    ensures acc == Invalid ==> r.value == Invalid
    ensures !acc.Text? ==> !r.value.Text?
    ensures !IsAdditive(Peek(s, r.pos))
    ensures !IsMultiplicative(Peek(s, pos)) ==> !IsAdditive(Peek(s, r.pos)) && !IsMultiplicative(Peek(s, r.pos))
    decreases Remaining(s, pos), 3
  {
    var op := Peek(s, pos);
    if op == NUL then Parsed(acc, pos)
    else if op != '+' && op != '-' then Parsed(acc, pos)
    else
      var t := Term(s, pos + 1, atom);
      ExpressionTail(s, Apply(if op == '+' then Add else Sub, acc, t.value), t.pos, atom)
  }

  /** term := factor (('*' | '/') factor)* */
  function Term(s: string, pos: nat, atom: string -> Value): (r: Parsed)
    ensures r.pos >= pos
    ensures !IsMultiplicative(Peek(s, r.pos))
    decreases Remaining(s, pos), 2
  {
    var f := Factor(s, pos, atom);
    TermTail(s, f.value, f.pos, atom)
  }

  /** The loop of `evalTerm`; a zero divisor makes the running result Invalid. */
  function TermTail(s: string, acc: Value, pos: nat, atom: string -> Value): (r: Parsed)
    ensures r.pos >= pos
    ensures IsMultiplicative(Peek(s, pos)) ==> r.pos > pos && !r.value.Text?
    ensures acc == Invalid ==> r.value == Invalid
    ensures !acc.Text? ==> !r.value.Text?
    ensures !IsMultiplicative(Peek(s, r.pos))
    decreases Remaining(s, pos), 1
  {
    var op := Peek(s, pos);
    if op == NUL then Parsed(acc, pos)
    else if op != '*' && op != '/' then Parsed(acc, pos)
    else
      var f := Factor(s, pos + 1, atom);
      TermTail(s, Apply(if op == '*' then Mul else Div, acc, f.value), f.pos, atom)
  }

  /** factor := '-'? ('(' expression ')' | token). A missing ')' makes the factor
      Invalid but the cursor is advanced anyway, even when it stands on the sentinel. */
  function Factor(s: string, pos: nat, atom: string -> Value): (r: Parsed)
    ensures r.pos >= pos
    ensures Peek(s, pos) == '-' ==> r.pos > pos && !r.value.Text?
    ensures Peek(s, pos) == '(' ==> r.pos >= pos + 2
    decreases Remaining(s, pos), 0
  {
    var negative := Peek(s, pos) == '-';
    var start := if negative then pos + 1 else pos;
    var inner :=
      if Peek(s, start) == '(' then
        var e := Expression(s, start + 1, atom);
        Parsed(if Peek(s, e.pos) != ')' then Invalid else e.value, e.pos + 1)
      else
        ReadToken(s, start, [], atom);
    if negative then Parsed(Negate(inner.value), inner.pos) else inner
  }

  /** The formula text after '=' is stripped of spaces, given a NUL sentinel, and
      parsed as one expression that must end exactly at the sentinel. */
  function EvalFormula(body: string, atom: string -> Value): (v: Value)
    ensures var s := Sentinelled(body);
      var r := Expression(s, 0, atom);
      NUL !in body ==>
        && (r.pos < |s| - 1 ==> v == Invalid)
        && (r.pos >= |s| - 1 ==> v == r.value)
  {
    var s := Sentinelled(body);
    var r := Expression(s, 0, atom);
    assert NUL !in body && r.pos < |s| - 1 ==> s[r.pos] != NUL;
    if Peek(s, r.pos) != NUL then Invalid else r.value
  }

  /** The string the parser runs on: the body's characters other than spaces, then
      a single NUL sentinel (which is the only NUL when the body holds none). */
  function Sentinelled(body: string): (s: string)
    ensures |s| >= 1 && s[|s| - 1] == NUL
    ensures forall k :: 0 <= k < |s| - 1 ==> s[k] != ' ' && s[k] in body
    ensures NUL !in body ==> forall k :: 0 <= k < |s| - 1 ==> s[k] != NUL
    ensures SpaceFree(body) ==> s == body + [NUL]
  {
    var t := StripSpaces(body);
    assert forall k :: 0 <= k < |t| ==> t[k] in t;
    t + [NUL]
  }
}

=== FILE: parser_facts.dfy ===
/** Properties of the evaluator as the source writes it. */
module ParserFacts {
  import opened Chars
  import opened Values
  import opened Lexer
  import opened Operands
  import opened Parser

  /** A character the grammar can never consume: not part of a token, not an
      operator, not a parenthesis, not the sentinel, and not a space (spaces are
      stripped before parsing). Examples: '$', ',', '!', a tab. */
  predicate Stray(c: char) {
    !IsTokenChar(c) && !IsAdditive(c) && !IsMultiplicative(c) && c != '(' && c != ')' && c != NUL && c != ' '
  }

  // Each parse function either stops at or before a stray character at `k`, or
  // moves past it only by skipping it after an unclosed '(' -- in which case the
  // value is already Invalid.

  lemma {:induction false} ExpressionStopsAtStray(s: string, pos: nat, k: nat, atom: string -> Value)
    requires pos <= k < |s| && Stray(s[k])
    ensures Expression(s, pos, atom).pos > k ==> Expression(s, pos, atom).value == Invalid
    decreases Remaining(s, pos), 4
  {
    TermStopsAtStray(s, pos, k, atom);
    var t := Term(s, pos, atom);
    if t.pos <= k {
      ExpressionTailStopsAtStray(s, t.value, t.pos, k, atom);
    }
  }

  lemma {:induction false} ExpressionTailStopsAtStray(s: string, acc: Value, pos: nat, k: nat, atom: string -> Value)
    requires pos <= k < |s| && Stray(s[k])
    ensures ExpressionTail(s, acc, pos, atom).pos > k ==> ExpressionTail(s, acc, pos, atom).value == Invalid
    decreases Remaining(s, pos), 3
  {
    var op := Peek(s, pos);
    if op == '+' || op == '-' {
      TermStopsAtStray(s, pos + 1, k, atom);
      var t := Term(s, pos + 1, atom);
      var next := Apply(if op == '+' then Add else Sub, acc, t.value);
      if t.pos <= k {
        ExpressionTailStopsAtStray(s, next, t.pos, k, atom);
      }
    }
  }

  lemma {:induction false} TermStopsAtStray(s: string, pos: nat, k: nat, atom: string -> Value)
    requires pos <= k < |s| && Stray(s[k])
    ensures Term(s, pos, atom).pos > k ==> Term(s, pos, atom).value == Invalid
    decreases Remaining(s, pos), 2
  {
    FactorStopsAtStray(s, pos, k, atom);
    var f := Factor(s, pos, atom);
    if f.pos <= k {
      TermTailStopsAtStray(s, f.value, f.pos, k, atom);
    }
  }

  lemma {:induction false} TermTailStopsAtStray(s: string, acc: Value, pos: nat, k: nat, atom: string -> Value)
    requires pos <= k < |s| && Stray(s[k])
    ensures TermTail(s, acc, pos, atom).pos > k ==> TermTail(s, acc, pos, atom).value == Invalid
    decreases Remaining(s, pos), 1
  {
    var op := Peek(s, pos);
    if op == '*' || op == '/' {
      FactorStopsAtStray(s, pos + 1, k, atom);
      var f := Factor(s, pos + 1, atom);
      var next := Apply(if op == '*' then Mul else Div, acc, f.value);
      if f.pos <= k {
        TermTailStopsAtStray(s, next, f.pos, k, atom);
      }
    }
  }

  lemma {:induction false} FactorStopsAtStray(s: string, pos: nat, k: nat, atom: string -> Value)
    requires pos <= k < |s| && Stray(s[k])
    ensures Factor(s, pos, atom).pos > k ==> Factor(s, pos, atom).value == Invalid
    decreases Remaining(s, pos), 0
  {
    var start := if Peek(s, pos) == '-' then pos + 1 else pos;
    if Peek(s, start) == '(' {
      ExpressionStopsAtStray(s, start + 1, k, atom);
    } else if start <= k {
      ReadTokenStopsAt(s, start, [], k, atom);
    }
  }

  /** A stray character anywhere in a formula makes the whole formula Invalid,
      whatever precedes or follows it, provided no NUL character comes before it
      (an embedded NUL ends the parse early, as in the source). */
  lemma StrayCharacterInvalidates(before: string, c: char, after: string, atom: string -> Value)
    requires Stray(c) && NUL !in before
    ensures EvalFormula(before + [c] + after, atom) == Invalid
  {
    var body := before + [c] + after;
    StripSpacesAppend(before + [c], after);
    StripSpacesAppend(before, [c]);
    var pre := StripSpaces(before);
    var s := Sentinelled(body);
    assert s == pre + [c] + StripSpaces(after) + [NUL];
    var k := |pre|;
    assert s[k] == c;
    ExpressionStopsAtStray(s, 0, k, atom);
    var r := Expression(s, 0, atom);
    if r.pos <= k {
      assert r.pos < k ==> s[r.pos] == pre[r.pos];
    }
  }

  // What each grammar level parses to, named so that a proof about a known
  // formula can state results one level at a time. Each is just `F(..) == r`;
  // the names keep the parser's definitions folded in the lemmas below, which
  // keeps each proof small.

  /** The factor at `pos` parses to `r`. */
  predicate FactorYields(s: string, pos: nat, atom: string -> Value, r: Parsed) {
    Factor(s, pos, atom) == r
  }

  /** The term at `pos` parses to `r`. */
  predicate TermYields(s: string, pos: nat, atom: string -> Value, r: Parsed) {
    Term(s, pos, atom) == r
  }

  /** The expression at `pos` parses to `r`. */
  predicate ExpressionYields(s: string, pos: nat, atom: string -> Value, r: Parsed) {
    Expression(s, pos, atom) == r
  }

  /** An operand token followed by a character that cannot extend it is read whole
      and given its meaning by `atom`. */
  lemma TokenFactor(s: string, pos: nat, tok: string, atom: string -> Value)
    requires |tok| >= 1 && Occurs(s, pos, tok)
    requires forall i :: 0 <= i < |tok| ==> IsTokenChar(tok[i])
    requires !IsTokenChar(Peek(s, pos + |tok|))
    ensures FactorYields(s, pos, atom, Parsed(atom(tok), pos + |tok|))
  {
    TokenOfRun(s, pos, tok);
    ReadTokenIsToken(s, pos, atom);
    assert s[pos + 0] == tok[0];
  }

  /** A leading '-' negates the factor after it (unless that starts with another '-'). */
  lemma NegatedFactor(s: string, pos: nat, atom: string -> Value, v: Value, p: nat)
    requires Peek(s, pos) == '-' && Peek(s, pos + 1) != '-'
    requires FactorYields(s, pos + 1, atom, Parsed(v, p))
    ensures FactorYields(s, pos, atom, Parsed(Negate(v), p))
  {
  }

  /** Only one unary minus is accepted: after "--" no operand token can start, so
      the token read is empty, and the factor is Invalid when the empty token is. */
  lemma DoubleMinusInvalid(s: string, pos: nat, atom: string -> Value)
    requires Peek(s, pos) == '-' && Peek(s, pos + 1) == '-' && atom([]) == Invalid
    ensures Factor(s, pos, atom).value == Invalid
  {
  }

  /** A parenthesised expression is a factor; it is Invalid unless the matching
      ')' is there, and either way the cursor moves one past the expression. */
  lemma GroupFactor(s: string, pos: nat, atom: string -> Value, v: Value, p: nat)
    requires Peek(s, pos) == '('
    requires ExpressionYields(s, pos + 1, atom, Parsed(v, p))
    ensures FactorYields(s, pos, atom, Parsed(if Peek(s, p) == ')' then v else Invalid, p + 1))
  {
  }

  // Building blocks for evaluating a known formula: each grammar level seen
  // through the values and cursor positions of the level below it.

  /** A factor not followed by '*' or '/' is a whole term. */
  lemma TermOfFactor(s: string, pos: nat, atom: string -> Value, r: Parsed)
    requires FactorYields(s, pos, atom, r) && !IsMultiplicative(Peek(s, r.pos))
    ensures TermYields(s, pos, atom, r)
  {
  }

  /** `f1 op f2` with op in '*' '/', not followed by another '*' or '/'. */
  lemma TermOfProduct(s: string, pos: nat, atom: string -> Value, v1: Value, p1: nat, v2: Value, p2: nat)
    requires FactorYields(s, pos, atom, Parsed(v1, p1))
    requires Peek(s, p1) == '*' || Peek(s, p1) == '/'
    requires FactorYields(s, p1 + 1, atom, Parsed(v2, p2))
    requires !IsMultiplicative(Peek(s, p2))
    ensures TermYields(s, pos, atom, Parsed(Apply(if Peek(s, p1) == '*' then Mul else Div, v1, v2), p2))
  {
    var v := Apply(if Peek(s, p1) == '*' then Mul else Div, v1, v2);
    assert Term(s, pos, atom) == TermTail(s, v1, p1, atom);
    assert TermTail(s, v1, p1, atom) == TermTail(s, v, p2, atom);
  }

  /** A term not followed by '+' or '-' is a whole expression. */
  lemma ExpressionOfTerm(s: string, pos: nat, atom: string -> Value, r: Parsed)
    requires TermYields(s, pos, atom, r) && !IsAdditive(Peek(s, r.pos))
    ensures ExpressionYields(s, pos, atom, r)
  {
  }

  /** `t1 op t2` with op in '+' '-', not followed by another '+' or '-'. */
  lemma ExpressionOfSum(s: string, pos: nat, atom: string -> Value, v1: Value, p1: nat, v2: Value, p2: nat)
    requires TermYields(s, pos, atom, Parsed(v1, p1))
    requires Peek(s, p1) == '+' || Peek(s, p1) == '-'
    requires TermYields(s, p1 + 1, atom, Parsed(v2, p2))
    requires !IsAdditive(Peek(s, p2))
    ensures ExpressionYields(s, pos, atom, Parsed(Apply(if Peek(s, p1) == '+' then Add else Sub, v1, v2), p2))
  {
    var v := Apply(if Peek(s, p1) == '+' then Add else Sub, v1, v2);
    assert Expression(s, pos, atom) == ExpressionTail(s, v1, p1, atom);
    assert ExpressionTail(s, v1, p1, atom) == ExpressionTail(s, v, p2, atom);
  }

  // The operator loops one iteration at a time, for chains of any length.

  /** The loop of `evalTerm` started with `acc` at `pos` parses to `r`. */
  predicate TermTailYields(s: string, acc: Value, pos: nat, atom: string -> Value, r: Parsed) {
    TermTail(s, acc, pos, atom) == r
  }

  /** The loop of `evalExpression` started with `acc` at `pos` parses to `r`. */
  predicate ExpressionTailYields(s: string, acc: Value, pos: nat, atom: string -> Value, r: Parsed) {
    ExpressionTail(s, acc, pos, atom) == r
  }

  /** A term is its first factor followed by the loop. */
  lemma TermStart(s: string, pos: nat, atom: string -> Value, v: Value, p: nat, r: Parsed)
    requires FactorYields(s, pos, atom, Parsed(v, p)) && TermTailYields(s, v, p, atom, r)
    ensures TermYields(s, pos, atom, r)
  {
  }

  /** One iteration of the `evalTerm` loop: the operator, then the next factor. */
  lemma TermTailStep(s: string, acc: Value, pos: nat, atom: string -> Value, v: Value, p: nat, r: Parsed)
    requires Peek(s, pos) == '*' || Peek(s, pos) == '/'
    requires FactorYields(s, pos + 1, atom, Parsed(v, p))
    requires TermTailYields(s, Apply(if Peek(s, pos) == '*' then Mul else Div, acc, v), p, atom, r)
    ensures TermTailYields(s, acc, pos, atom, r)
  {
  }

  /** The `evalTerm` loop ends at any character other than '*' and '/'. */
  lemma TermTailEnd(s: string, acc: Value, pos: nat, atom: string -> Value)
    requires !IsMultiplicative(Peek(s, pos))
    ensures TermTailYields(s, acc, pos, atom, Parsed(acc, pos))
  {
  }

  /** An expression is its first term followed by the loop. */
  lemma ExpressionStart(s: string, pos: nat, atom: string -> Value, v: Value, p: nat, r: Parsed)
    requires TermYields(s, pos, atom, Parsed(v, p)) && ExpressionTailYields(s, v, p, atom, r)
    ensures ExpressionYields(s, pos, atom, r)
  {
  }

  /** One iteration of the `evalExpression` loop: the operator, then the next term. */
  lemma ExpressionTailStep(s: string, acc: Value, pos: nat, atom: string -> Value, v: Value, p: nat, r: Parsed)
    requires Peek(s, pos) == '+' || Peek(s, pos) == '-'
    requires TermYields(s, pos + 1, atom, Parsed(v, p))
    requires ExpressionTailYields(s, Apply(if Peek(s, pos) == '+' then Add else Sub, acc, v), p, atom, r)
    ensures ExpressionTailYields(s, acc, pos, atom, r)
  {
  }

  /** The `evalExpression` loop ends at any character other than '+' and '-'. */
  lemma ExpressionTailEnd(s: string, acc: Value, pos: nat, atom: string -> Value)
    requires !IsAdditive(Peek(s, pos))
    ensures ExpressionTailYields(s, acc, pos, atom, Parsed(acc, pos))
  {
  }

  /** A first factor that is Invalid makes the whole expression Invalid, whatever follows. */
  lemma InvalidFirstFactor(s: string, pos: nat, atom: string -> Value)
    requires Factor(s, pos, atom).value == Invalid
    ensures Expression(s, pos, atom).value == Invalid
  {
  }

  /** A space-free formula whose expression ends exactly at the sentinel has that
      expression's value; one whose expression stops earlier is Invalid. */
  lemma FormulaOfExpression(body: string, atom: string -> Value, r: Parsed)
    requires SpaceFree(body) && NUL !in body
    requires ExpressionYields(body + [NUL], 0, atom, r)
    ensures r.pos == |body| ==> EvalFormula(body, atom) == r.value
    ensures r.pos < |body| ==> EvalFormula(body, atom) == Invalid
  {
    assert Sentinelled(body) == body + [NUL];
    if r.pos < |body| {
      assert body[r.pos] in body;
    }
  }
}

=== FILE: references.dfy ===
/** Cell references inside formulas: one letter naming the column and one to three
    digits naming the row, as matched by `[A-Za-z][1-9][0-9]{0,2}`. */
module References {
  import opened Options
  import opened Chars
  import opened Numerals

  /** A zero-based grid coordinate. */
  datatype Ref = Ref(row: int, col: int)

  /** The whole token matches `[A-Za-z][1-9][0-9]{0,2}`. */
  predicate IsReferenceToken(tok: string) {
    && 2 <= |tok| <= 4
    && IsAsciiLetter(tok[0])
    && '1' <= tok[1] <= '9'
    && forall i :: 2 <= i < |tok| ==> IsDigit(tok[i])
  }

  /** A coordinate that some reference token can name. */
  predicate InRange(ref: Ref) {
    0 <= ref.row < 999 && 0 <= ref.col < 26
  }

  /** The coordinate a token names: column = upper-cased letter - 'A', row = number - 1. */
  function MatchReference(tok: string): (r: Option<Ref>)
    ensures r.Some? <==> IsReferenceToken(tok)
    ensures r.Some? ==> InRange(r.value)
  {
    if IsReferenceToken(tok) then
      var digits := tok[1..];
      assert AllDigits(digits) && |digits| <= 3;
      DigitsBound(digits);
      DigitsLowerBound(digits);
      Some(Ref(DigitsValue(digits) - 1, ToUpper(tok[0]) as int - 'A' as int))
    else
      None
  }

  /** The canonical (upper-case) name of a coordinate, such as "B12". */
  function ReferenceName(ref: Ref): (name: string)
    requires InRange(ref)
    ensures IsReferenceToken(name)
  {
    var digits := NatToString(ref.row + 1);
    assert |digits| <= 3 by {
      DigitsLowerBound(digits);
      if |digits| > 3 {
        Pow10Monotone(3, |digits| - 1);
      }
    }
    [('A' as int + ref.col) as char] + digits
  }

  /** Round trip: the name of a coordinate matches back to that coordinate. */
  lemma MatchReferenceName(ref: Ref)
    requires InRange(ref)
    ensures MatchReference(ReferenceName(ref)) == Some(ref)
  {
    var name := ReferenceName(ref);
    assert name[1..] == NatToString(ref.row + 1);
  }

  /** Round trip the other way: a matching token is the name of its coordinate, up
      to the case of its letter. */
  lemma ReferenceNameOfMatch(tok: string)
    requires IsReferenceToken(tok)
    ensures ReferenceName(MatchReference(tok).value) == [ToUpper(tok[0])] + tok[1..]
  {
    NatToStringOfDigits(tok[1..]);
  }

  /** Column letters are case-insensitive. */
  lemma MatchIgnoresCase(tok: string, c: char)
    requires IsReferenceToken(tok) && IsAsciiLetter(c) && ToUpper(c) == ToUpper(tok[0])
    ensures MatchReference([c] + tok[1..]) == MatchReference(tok)
  {
    assert ([c] + tok[1..])[1..] == tok[1..];
  }

  /** At most three digits denote at most 999. */
  lemma {:induction false} DigitsBound(d: string)
    requires AllDigits(d)
    ensures DigitsValue(d) < Pow10(|d|)
    decreases |d|
  {
    if |d| > 0 {
      DigitsBound(d[..|d| - 1]);
    }
  }

  lemma {:induction false} Pow10Monotone(j: nat, k: nat)
    requires j <= k
    ensures Pow10(j) <= Pow10(k)
    decreases k
  {
    if j < k {
      Pow10Monotone(j, k - 1);
    }
  }
}

=== FILE: values.dfy ===
/** The three-way result of evaluating a cell (`QVariant` holding a double, a
    string, or nothing at all). */
module Values {

  datatype Value = Number(n: real) | Text(t: string) | Invalid

  datatype BinaryOp = Add | Sub | Mul | Div

  /** One step of the operator loops: arithmetic is defined on two numbers only,
      and a zero divisor gives Invalid instead of an infinity. */
  function Apply(op: BinaryOp, a: Value, b: Value): (r: Value)
    ensures r.Number? <==> a.Number? && b.Number? && !(op == Div && b.n == 0.0)
    ensures !r.Text?
  {
    if a.Number? && b.Number? then
      match op
      case Add => Number(a.n + b.n)
      case Sub => Number(a.n - b.n)
      case Mul => Number(a.n * b.n)
      case Div => if b.n == 0.0 then Invalid else Number(a.n / b.n)
    else
      Invalid
  }

  /** Arithmetic on two numbers, with division by zero undefined (Invalid). It
      repeats `Apply`'s number branch under a name so that proofs about concrete
      formulas can reach the real arithmetic through `ApplyNumbers` without
      unfolding `Apply`, which keeps those proofs cheap. */
  function Arithmetic(op: BinaryOp, x: real, y: real): Value {
    match op
    case Add => Number(x + y)
    case Sub => Number(x - y)
    case Mul => Number(x * y)
    case Div => if y == 0.0 then Invalid else Number(x / y)
  }

  /** On two numbers `Apply` is plain arithmetic. */
  lemma ApplyNumbers(op: BinaryOp, x: real, y: real)
    ensures Apply(op, Number(x), Number(y)) == Arithmetic(op, x, y)
  {
  }

  /** Addition and multiplication commute on every pair of values, whatever they hold. */
  lemma ApplyCommutes(op: BinaryOp, a: Value, b: Value)
    requires op == Add || op == Mul
    ensures Apply(op, a, b) == Apply(op, b, a)
  {
  }

  /** Addition and multiplication are associative on every triple of values. */
  lemma ApplyAssociates(op: BinaryOp, a: Value, b: Value, c: Value)
    requires op == Add || op == Mul
    ensures Apply(op, Apply(op, a, b), c) == Apply(op, a, Apply(op, b, c))
  {
    if a.Number? && b.Number? && c.Number? {
      if op == Add {
        assert (a.n + b.n) + c.n == a.n + (b.n + c.n);
      } else {
        MulAssociates(a.n, b.n, c.n);
      }
    }
  }

  lemma MulAssociates(x: real, y: real, z: real)
    ensures (x * y) * z == x * (y * z)
  {
  }

  /** Multiplication distributes over addition on every triple of values: when any
      of them is not a number both sides are Invalid. */
  lemma ApplyDistributes(a: Value, b: Value, c: Value)
    ensures Apply(Mul, a, Apply(Add, b, c)) == Apply(Add, Apply(Mul, a, b), Apply(Mul, a, c))
  {
  }

  /** Unary minus: defined on numbers only. */
  function Negate(v: Value): (r: Value)
    ensures r.Number? <==> v.Number?
    ensures r.Number? ==> r.n + v.n == 0.0
    ensures !r.Text?
  {
    if v.Number? then Number(-v.n) else Invalid
  }

  /** Invalid is absorbing: no binary operator can recover from it, on either side. */
  lemma InvalidAbsorbs(op: BinaryOp, v: Value)
    ensures Apply(op, Invalid, v) == Invalid
    ensures Apply(op, v, Invalid) == Invalid
  {
  }

  /** Subtraction undoes addition and division undoes multiplication by a non-zero number. */
  lemma ApplyInverses(x: real, y: real)
    ensures Apply(Sub, Apply(Add, Number(x), Number(y)), Number(y)) == Number(x)
    ensures y != 0.0 ==> Apply(Div, Apply(Mul, Number(x), Number(y)), Number(y)) == Number(x)
  {
  }

  /** Negation is an involution on numbers and maps everything else to Invalid. */
  lemma NegateInvolution(v: Value)
    ensures v.Number? ==> Negate(Negate(v)) == v
    ensures !v.Number? ==> Negate(v) == Invalid
  {
  }
}
